=== FILE: README.md ===
# Barnes-Hut quadtree core: a Dafny model

This project models the core of a two-dimensional Barnes-Hut N-body simulator. It covers:

- the bounding box of a universe snapshot (`Universe::get_bounding_box` and its OpenMP variant);
- the quadtree built over that box (`Quadtree`: constructor mode switch, recursive `construct`, the two task stubs, `get_bounding_boxes`);
- the two aggregation passes of `QuadtreeNode`, which compute each node's cumulative mass and centre of mass;
- the serial collision pass `BarnesHutSimulationWithCollisions::find_collisions`.

Positions, velocities and weights are mathematical reals. Trees are immutable datatypes: every pass returns the updated subtree instead of writing through pointers.

Modules, one file each:

- `Geometry` (`geometry.dfy`): vectors and the `BoundingBox` with its four-way `subdivide` and `contains`.
- `Universes` (`universe.dfy`): the universe record, the serial bounding-box fold and the chunked parallel fold.
- `QuadtreeNodes` (`quadtree_node.dfy`): the node, its leaf records and the two aggregation passes.
- `Quadtrees` (`quadtree.dfy`): the constructor, `construct` and the tree traversals.
- `Collisions` (`collisions.dfy`): `find_collisions` as written, and the pass as evidently intended.

Where the code does not do what its own names and comments announce, the model follows the code:

- The constructor is meant to build the tree over the universe's bodies. It hands `construct` an empty index vector and drops the returned children, so every tree it builds is a single empty root.
- `construct_task` and `construct_task_with_cutoff` return no nodes.
- The comments of `find_collisions` say that each colliding body is taken up by the heaviest one, which gains its weight and momentum, and that a body once taken up is skipped. The code never sets its absorbed flags, uses a list position as a body index in its merge loop, and removes no body.

The first and third are findings below, modelled both as written and as evidently intended.

Assumptions about code that is not part of this model:

- The `BoundingBox` and `Vector2d` headers are not part of this model. `contains` is taken half-open on both axes (`min <= c < max`). `subdivide` is taken to return the quadrants in the order NW, NE, SW, SE, split at the box's midpoints. The general construction proofs use only that the four quadrants partition the box (the concrete run `Quadtrees.ThreeQuadrantsGiveWrappedLeaves` also depends on the midpoint split and the quadrant order), which `Geometry.SubdivideIsPartition` states and the construction proofs use in its counting form. A consequence of half-open containment: the box `get_bounding_box` returns, which `BarnesHutSimulation::simulate_epoch` hands the constructor, never contains the bodies on its right and top edges, so with two or more bodies `construct` over that box leaves them out (a single body becomes a leaf without any `contains` test) (`Quadtrees.EdgeBodyDropped`, and `Quadtrees.BoundingBoxDropsABody` for the box itself). What the tree holds for any box is stated by `Quadtrees.ConstructKeepsBodiesInBox`.
- A default-constructed `Vector2d` is taken to be the origin.
- `norm() < 10^8` is compared as a squared distance, `< 10^16`, which is the same test on reals.
- `construct` recurses for ever when two bodies share a position. It therefore takes a `fuel` bound on the recursion depth, and every property of it is stated for runs that finish within the bound.

## Model

| member | source | states |
|---|---|---|
| Geometry.SubdivideIsPartition | source/quadtree/quadtree.cpp:60-71 | a point inside a box lies in exactly one of its four sub-boxes, and a point outside lies in none, so the partition loop hands each body to one quadrant |
| Universes.GetBoundingBox | source/structures/universe.cpp:24-50 | every position lies within the closed box (edges included) and the box is the left-to-right fold of the positions from the sentinel box, whose edges Universes.FoldEncloses characterises; with no positions it is the sentinel box |
| Universes.FoldEncloses | source/structures/universe.cpp:30-47 | after the scan, each maximum is at least its sentinel and every coordinate and equals one of them; dually for each minimum |
| Universes.RightEdgeOnBody | source/structures/universe.cpp:26-37 | once one x coordinate reaches the initial right edge (for `get_bounding_box`, the smallest positive double), the right edge of the box is some body's x coordinate |
| Universes.EnclosesUnique | source/structures/universe.cpp:24-50 | the extremum characterisation determines the box: two boxes satisfying it are equal |
| Universes.AllNegativeRightEdgeIsSentinel | source/structures/universe.cpp:26-28 | when every x coordinate is negative, the right edge stays at the smallest positive double, which is no body's coordinate |
| Universes.LowerEdgesAttained | source/structures/universe.cpp:25-47 | for a non-empty universe inside the double range, the left and bottom edges are attained by some body |
| Universes.TightBoundingBox | source/structures/universe.cpp:24-50 | every position lies within the closed corrected box (edges included) |
| Universes.TightBoundingBoxIsSmallest | source/structures/universe.cpp:24-50 | for a non-empty universe inside the double range, all four edges of the corrected box are attained by some body, so no smaller box contains them all |
| Universes.CombineEncloses | source/structures/universe.cpp:90-96 | merging two threads' local boxes in the critical section gives the enclosing box of the concatenated positions |
| Universes.ParallelMatchesSerial | source/structures/universe.cpp:53-100 | the chunked fold with a per-chunk local box and a final merge equals the serial fold over all positions |
| Universes.ParallelEncloses | source/structures/universe.cpp:53-100 | the parallel result satisfies the same extremum characterisation as the serial one |
| QuadtreeNodes.NewNode | source/quadtree/quadtreeNode.cpp:20-26 | a fresh node has the given box, no children, body identifier -1, zero mass and both ready flags false |
| QuadtreeNodes.MassPass | source/quadtree/quadtreeNode.cpp:6-18 | the returned and stored mass is the total mass of the subtree's leaves; the tree keeps its shape, boxes, leaves and centres; afterwards every node is mass-ready and stores the total mass of the leaves below it |
| QuadtreeNodes.MassPassOf | source/quadtree/quadtreeNode.cpp:13-15 | the loop over the children returns the total leaf mass of all children and leaves each child aggregated |
| QuadtreeNodes.MassPassFixpoint | source/quadtree/quadtreeNode.cpp:6-18 | on a tree that is already aggregated and mass-ready, the pass changes nothing and returns the stored mass |
| QuadtreeNodes.MassPassIdempotent | source/quadtree/quadtreeNode.cpp:6-18 | running the mass pass twice gives the same tree and total as running it once |
| QuadtreeNodes.CenterPass | source/quadtree/quadtreeNode.cpp:36-59 | the tree keeps its shape and leaves, and every node becomes centre-ready; an inner node stores its leaves' total mass; when all leaf masses are positive, the returned centre is the mass-weighted mean of the leaf positions; with no mass the old centre is kept |
| QuadtreeNodes.CenterPassOf | source/quadtree/quadtreeNode.cpp:45-51 | the loop over the children sums the children's leaf masses and, with positive masses, their total first moment; each child comes back finished, with the same shape and all flags set |
| QuadtreeNodes.AggregateInEpochOrder | source/simulation/barnes_hut_simulation.cpp:17-18 | the centre pass followed by the mass pass leaves every node ready and aggregated, with the root holding the total mass and, for positive masses, the centre of mass of all leaves |
| QuadtreeNodes.TotalsPermutation | source/quadtree/quadtree.cpp:63-80 | total mass and first moment do not depend on the order in which leaves are visited, so the quadrant order does not affect the aggregates |
| Quadtrees.Construct | source/quadtree/quadtree.cpp:40-86 | no bodies gives no nodes; one body gives one leaf holding that body's mass and position with both flags set; two or more give at most four fresh wrapper nodes, each on a quadrant of the box |
| Quadtrees.PartOfPartition | source/quadtree/quadtree.cpp:64-71 | the index list for a quadrant holds, with multiplicity, exactly the parent's bodies that the quadrant contains |
| Quadtrees.PartitionSum | source/quadtree/quadtree.cpp:63-71 | when each body lies in exactly one quadrant, the four quadrant lists together hold every body of the parent exactly once |
| Quadtrees.QuadrantsStructure | source/quadtree/quadtree.cpp:63-80 | every child node is made for a quadrant that received at least one body, and its children are the recursive construction over that quadrant's bodies |
| Quadtrees.QuadrantsBoxes | source/quadtree/quadtree.cpp:63-80 | the children are one node per quadrant that received a body, in quadrant order |
| Quadtrees.ConstructSplitsIntoQuadrants | source/quadtree/quadtree.cpp:59-82 | with two or more bodies, `construct` returns exactly one node per non-empty quadrant, in order, each built recursively from that quadrant's bodies |
| Quadtrees.ConstructLeaves | source/quadtree/quadtree.cpp:40-86 | for bodies inside the box, the leaves of the returned nodes are exactly the bodies' mass and position records, as a multiset |
| Quadtrees.ConstructKeepsBodiesInBox | source/quadtree/quadtree.cpp:59-82 | for any box and two or more bodies, the leaves are exactly the records of the bodies the box contains, each once; bodies outside the box are dropped |
| Quadtrees.ConstructLeavesAreInputs | source/quadtree/quadtree.cpp:40-86 | for any box, every leaf identifier is one of the body indices passed in, and no index occurs more often than it was passed |
| Quadtrees.EdgeBodyDropped | source/quadtree/quadtree.cpp:59-71 | a body on the right or top edge of the box, where `get_bounding_box` puts the extreme bodies of the box the simulation passes in, lies in no leaf of `construct` over all bodies when there are two or more bodies |
| Quadtrees.BoundingBoxDropsABody | source/simulation/barnes_hut_simulation.cpp:15 | with the box the bounding-box loop folds from a start box (for `get_bounding_box`, the sentinels), handed to the constructor as the simulation does, once some body's x coordinate reaches the start's right edge, some body lies in no leaf of `construct` over all bodies when there are two or more bodies |
| Quadtrees.ConstructPlacesEachBodyOnce | source/quadtree/quadtree.cpp:40-86 | for bodies inside the box, or a single body anywhere, every body index passed in appears in exactly one leaf of the result, and no other index appears |
| Quadtrees.ConstructTask | source/quadtree/quadtree.cpp:88-90 | the task-parallel strategy contributes no body to the tree |
| Quadtrees.ConstructTaskWithCutoff | source/quadtree/quadtree.cpp:92-94 | the task-with-cutoff strategy contributes no body to the tree |
| Quadtrees.NewQuadtree | source/quadtree/quadtree.cpp:8-24 | a tree is built exactly for modes 0, 1 and 2, and any other mode raises `invalid_argument`; the root is a fresh node on the given box with no children |
| Quadtrees.AsWrittenTreeHoldsNoBody | source/quadtree/quadtree.cpp:10-13 | for any universe of positive-weight bodies, the tree the constructor builds has root mass 0 after the mass pass, although the universe's total weight is positive |
| Quadtrees.NewQuadtreeCorrected | source/quadtree/quadtree.cpp:8-24 | the corrected constructor rejects exactly the modes other than 0, 1 and 2, and its root is a body-less node on the given box |
| Quadtrees.CorrectedTreeHoldsEveryBody | source/quadtree/quadtree.cpp:8-24 | when the box contains every body, the corrected tree's leaves are exactly the records of all bodies of the universe |
| Quadtrees.CorrectedRootTotals | source/quadtree/quadtree.cpp:8-24 | the corrected tree's leaves have the universe's total weight as their total mass and the bodies' total first moment as theirs |
| Quadtrees.CorrectedLeavesPositive | source/quadtree/quadtree.cpp:8-24 | when every body has positive weight, every leaf of the corrected tree has positive mass |
| Quadtrees.CorrectedTreeAggregatesBodies | source/quadtree/quadtree.cpp:8-37 | building the corrected tree and running both passes gives a root whose mass is the universe's total weight and whose centre is the universe's centre of mass |
| Quadtrees.ThreeQuadrantsGiveWrappedLeaves | source/quadtree/quadtree.cpp:59-82 | three bodies in three different quadrants of a 4x4 box give three wrapper nodes, each holding the single leaf of its body |
| Quadtrees.GetBoundingBoxes | source/quadtree/quadtree.cpp:96-107 | as many entries as the subtree has nodes, with the node's own box last; the order of the children's blocks is stated by Quadtrees.BoundingBoxesInChildOrder and the set of boxes by Quadtrees.BoundingBoxesOfSubtree |
| Quadtrees.BoundingBoxesInChildOrder | source/quadtree/quadtree.cpp:96-107 | post-order with the children in order: the boxes of child k fill the entries right after the `SizeOf(children[..k])` entries of the children before it, and the node's own box follows all of them |
| Quadtrees.BoundingBoxesOfSubtree | source/quadtree/quadtree.cpp:96-107 | the collected list holds the box of every node of the subtree, and every box in it is the box of some node of the subtree |
| Quadtrees.BoundingBoxesFollowShape | source/quadtree/quadtree.cpp:96-107 | the collected boxes depend only on the tree's shape, so the aggregation passes leave them unchanged |
| Quadtrees.CalculateCumulativeMasses | source/quadtree/quadtree.cpp:31-33 | the root holds the total leaf mass, and the tree is mass-ready and aggregated with its shape and leaves unchanged |
| Quadtrees.CalculateCenterOfMass | source/quadtree/quadtree.cpp:35-37 | the tree keeps its shape and becomes centre-ready; with positive leaf masses, the root's centre is the leaves' centre of mass |
| Collisions.Detect | source/simulation/barnes_hut_simulation_with_collisions.cpp:24-37 | the collision list starts with i, has at most one entry per scanned body plus i, and holds only valid indices, as does `biggest` |
| Collisions.DetectListShape | source/simulation/barnes_hut_simulation_with_collisions.cpp:26-37 | after i, the list holds distinct, non-absorbed bodies other than i, in increasing index order |
| Collisions.DetectMembers | source/simulation/barnes_hut_simulation_with_collisions.cpp:26-37 | a body other than i is listed if and only if it is scanned, not absorbed and within the radius of i |
| Collisions.DetectFindsFirstHeaviest | source/simulation/barnes_hut_simulation_with_collisions.cpp:25-35 | `biggest` is a listed body of maximal weight, and no earlier list entry is as heavy |
| Collisions.IWinsTies | source/simulation/barnes_hut_simulation_with_collisions.cpp:25-35 | another body replaces i as the heaviest only when strictly heavier |
| Collisions.MergeIntoAddsMomentum | source/simulation/barnes_hut_simulation_with_collisions.cpp:43-50 | one merge step conserves momentum: the receiving body's new momentum is the sum of both old momenta |
| Collisions.MergeAsWrittenFoldsByIndex | source/simulation/barnes_hut_simulation_with_collisions.cpp:40-51 | the merge loop over a list of size n adds to `biggest` the weight of bodies 0 .. n-1 other than itself, chosen by index, and leaves every other body unchanged |
| Collisions.MergeAsWrittenAddsMomentum | source/simulation/barnes_hut_simulation_with_collisions.cpp:40-51 | the merge loop gives `biggest` its own momentum plus that of bodies 0 .. n-1 other than itself |
| Collisions.AsWrittenStepTouchesOnlyHeaviest | source/simulation/barnes_hut_simulation_with_collisions.cpp:20-52 | an outer iteration changes only the heaviest body of i's list |
| Collisions.AsWrittenNeverLowersWeight | source/simulation/barnes_hut_simulation_with_collisions.cpp:16-56 | no body's weight ever decreases during the pass as written |
| Collisions.FindCollisionsAsWritten | source/simulation/barnes_hut_simulation_with_collisions.cpp:16-56 | the pass keeps every weight positive and changes no position, force, body count or epoch |
| Collisions.DetectLoop | source/simulation/barnes_hut_simulation_with_collisions.cpp:24-37 | the imperative scan computes the same list and heaviest body as the recursive definition |
| Collisions.MergeLoop | source/simulation/barnes_hut_simulation_with_collisions.cpp:40-51 | the imperative merge loop computes the same universe as the recursive definition |
| Collisions.OuterLoop | source/simulation/barnes_hut_simulation_with_collisions.cpp:20-53 | the imperative outer loop computes the same universe as the recursive definition |
| Collisions.FindCollisions | source/simulation/barnes_hut_simulation_with_collisions.cpp:16-56 | starting from all-false flags, the method computes the as-written pass: weights stay positive and never decrease, and positions, forces, body count and epoch are unchanged |
| Collisions.AsWrittenFarPairGainsWeight | source/simulation/barnes_hut_simulation_with_collisions.cpp:40-51 | two bodies three radii apart, which do not collide, still end with weights 1 and 3 instead of 1 and 2 |
| Collisions.AsWrittenClosePairDoubleCounts | source/simulation/barnes_hut_simulation_with_collisions.cpp:40-51 | two colliding bodies of weights 1 and 2 end with weights 1 and 4, so the lighter one is counted twice and never removed |
| Collisions.AbsorbConserves | source/simulation/barnes_hut_simulation_with_collisions.cpp:43-50 | merging one live body into another and marking it absorbed keeps the total weight and momentum of the live bodies |
| Collisions.MergeListedConserves | source/simulation/barnes_hut_simulation_with_collisions.cpp:40-51 | the corrected merge loop over a list of distinct live bodies keeps the live totals |
| Collisions.CorrectedConserves | source/simulation/barnes_hut_simulation_with_collisions.cpp:16-56 | the corrected pass conserves the total weight and the total momentum of the bodies not absorbed |
| Collisions.CorrectedFarPairUnchanged | source/simulation/barnes_hut_simulation_with_collisions.cpp:16-56 | corrected, two bodies that do not collide come through unchanged |
| Collisions.CorrectedClosePairMerges | source/simulation/barnes_hut_simulation_with_collisions.cpp:16-56 | corrected, two colliding bodies of weights 1 and 2 become one live body of weight 3, and the lighter one is marked absorbed |

## Left out

- Input and output: `Universe::print_bodies_to_console`, the plotter and the intermediate plots.
- The OpenMP runtime. `parallel_cpu_get_bounding_box` is modelled as a fold over a sequence of chunks, one per thread, with the critical section merging the local boxes in chunk order. Other orders of entering the critical section are not modelled.
- IEEE-754 arithmetic. Reals replace doubles, so rounding, overflow to infinity and NaN are not modelled. The two `numeric_limits` sentinels are kept as their exact values.
- Universes.LowerEdgesAttained and Universes.TightBoundingBoxIsSmallest: they require the coordinates to lie within the double range. Doubles cannot lie outside it, so this bound only restores what the real-number model loses.
- Quadtrees.Construct: `construct` does not terminate when two bodies share a position. The model cuts the recursion at `fuel` levels and reports `None`, and the corrected constructor reports `Diverges`. Nothing is stated about runs that reach the bound.
- Quadtrees.NewQuadtreeCorrected: modes 1 and 2 are given the serial construction. Both task-parallel strategies are stubs, and a task-parallel `construct` that finishes every task builds the same children as the serial one; only the scheduling of tasks onto threads differs, and that is not modelled.
- Quadtrees.CorrectedTreeHoldsEveryBody, Quadtrees.CorrectedRootTotals, Quadtrees.CorrectedLeavesPositive and Quadtrees.CorrectedTreeAggregatesBodies: they require a box that contains every body. Under half-open containment the box `get_bounding_box` returns is not such a box when a body lies on its right or top edge; for that box the tree holds only the bodies Quadtrees.ConstructKeepsBodiesInBox names.
- Collisions.FindCollisions: requires every weight to be strictly positive. The source divides by the summed weight of a merge, which a zero total would turn into a division by zero (NaN in IEEE arithmetic) that reals cannot express.
- Quadtrees.Partition: the contract says only that the selected bodies lie in the quadrant. That the quadrant receives every parent body it contains, and nothing else, is stated by Quadtrees.PartOfPartition.
- The destructors of `Quadtree` and `QuadtreeNode`. Memory management disappears with immutable datatypes.
- `BarnesHutSimulationWithCollisions::simulate_epoch` and `find_collisions_parallel`, which return immediately.
- The force, velocity and position updates of an epoch (`calculate_forces`, `get_relevant_nodes` and the naive simulation). Only the aggregation order of `BarnesHutSimulation::simulate_epoch` is modelled.
- The header-only `BoundingBox` and `Vector2d` classes are not part of this model. Their behaviour is the assumption stated above.

## Findings

| source | as written | input that shows it | evidently intended | confidence | as-written member | corrected member |
|---|---|---|---|---|---|---|
| source/structures/universe.cpp:26-28 | the maximum accumulators start at `numeric_limits<double>::min()`, the smallest positive double, not the most negative one | any universe whose bodies all have x < 0: the right edge stays at about 2.2e-308, which no body attains | start the maxima at `-numeric_limits<double>::max()`, so every edge is attained by a body | not executed | Universes.AllNegativeRightEdgeIsSentinel | Universes.TightBoundingBoxIsSmallest |
| source/quadtree/quadtree.cpp:10-13 | the constructor passes an empty index vector to `construct` and discards the returned children | any universe with a body of positive weight: the root's cumulative mass is 0 | pass all body indices and attach the result as the root's children | not executed | Quadtrees.AsWrittenTreeHoldsNoBody | Quadtrees.CorrectedTreeAggregatesBodies |
| source/simulation/barnes_hut_simulation_with_collisions.cpp:40-51 | the merge loop uses its list position j as a body index, and no body is ever marked absorbed | two bodies of weights 1 and 2 at distance 3e8: no collision, yet body 1 ends with weight 3 | merge the listed bodies `collisions[j]` into the heaviest and mark them absorbed | not executed | Collisions.AsWrittenFarPairGainsWeight | Collisions.CorrectedConserves |

=== FILE: collisions.dfy ===
/**
 The serial collision pass `BarnesHutSimulationWithCollisions::find_collisions`.

 For every body i (in index order) the pass collects i followed by every
 other body closer than the interaction radius, remembers the heaviest of
 them, and then runs a merge loop that adds weight and momentum into that
 heaviest body. The source's own comments say what the pass is for: each
 listed body is to be taken up by the heaviest one, which gains its weight
 and, by conservation of momentum, its momentum, and a body once taken up is
 to be skipped for the rest of the pass. As written, three things differ from
 that, and this module models them exactly:
 - the `is_absorbed` flags start false and are never set, so both skip tests
   never fire;
 - the merge loop's counter j, a position in the collision list, is used as a
   body index, so it folds bodies 0 .. size-1 into the heaviest one;
 - no body is ever removed.
 `norm() < 10^8` is modelled as squared distance `< 10^16`.

 The second half of the module is the pass as evidently intended (merge the
 listed bodies and mark them absorbed); it conserves the total weight and
 total momentum of the bodies not absorbed.
 */
module Collisions {
  import opened Geometry
  import opened Universes

  /** The square of the literal radius `10^8` of `find_collisions`. */
  const SquaredRadius: real := 10000000000000000.0

  /** A universe the pass can run on: consistent lengths and strictly positive weights. */
  predicate Ready(u: Universe) {
    u.Valid() && forall k :: 0 <= k < |u.weights| ==> u.weights[k] > 0.0
  }

  /** The distance test: `(positions[j] - positions[i]).norm() < 10^8`. */
  predicate Close(u: Universe, i: int, j: int)
    requires u.Valid() && 0 <= i < u.numBodies && 0 <= j < u.numBodies
  {
    u.positions[j].Minus(u.positions[i]).NormSquared() < SquaredRadius
  }

  /** The pass changes weights and velocities only. */
  predicate SameFrame(r: Universe, u: Universe) {
    r.numBodies == u.numBodies && r.positions == u.positions && r.forces == u.forces &&
    |r.velocities| == |u.velocities| && |r.weights| == |u.weights| &&
    r.currentEpoch == u.currentEpoch
  }

  function AllFalse(n: nat): (flags: seq<bool>)
    ensures |flags| == n && forall k :: 0 <= k < n ==> !flags[k]
  {
    seq(n, k => false)
  }

  // ---------------------------------------------------------------------------
  // The detection loop, shared by both versions
  // ---------------------------------------------------------------------------

  /** The collision list and the index of its heaviest body. */
  datatype Candidates = Candidates(collisions: seq<int>, biggest: int)

  /**
   The inner detection loop after its iterations 0 .. j-1: body m is appended
   when m != i, m is not absorbed and m is close to i; `biggest` moves to m
   only when m is strictly heavier.
   */
  function Detect(u: Universe, absorbed: seq<bool>, i: int, j: int): (d: Candidates)
    requires u.Valid() && |absorbed| == u.numBodies && 0 <= i < u.numBodies && 0 <= j <= u.numBodies
    decreases j
    ensures 1 <= |d.collisions| <= (if i < j then j else j + 1) && d.collisions[0] == i
    ensures forall k :: 0 <= k < |d.collisions| ==> 0 <= d.collisions[k] < u.numBodies
    ensures 0 <= d.biggest < u.numBodies
  {
    if j == 0 then Candidates([i], i)
    else
      var d := Detect(u, absorbed, i, j - 1);
      var m := j - 1;
      if m == i || absorbed[m] || !Close(u, i, m) then d
      else
        var c := d.collisions + [m];
        assert forall k :: 0 <= k < |d.collisions| ==> c[k] == d.collisions[k];
        Candidates(c, if u.weights[m] > u.weights[d.biggest] then m else d.biggest)
  }

  /**
   After its head i, list c holds bodies below j other than i that are not
   absorbed, in increasing index order (so no body is listed twice).
   */
  predicate ListShape(c: seq<int>, absorbed: seq<bool>, i: int, j: int)
    requires forall k :: 0 <= k < |c| ==> 0 <= c[k] < |absorbed|
  {
    (forall k :: 1 <= k < |c| ==> c[k] < j && c[k] != i && !absorbed[c[k]]) &&
    (forall a, b :: 1 <= a < b < |c| ==> c[a] < c[b])
  }

  lemma {:induction false} DetectListShape(u: Universe, absorbed: seq<bool>, i: int, j: int)
    requires u.Valid() && |absorbed| == u.numBodies && 0 <= i < u.numBodies && 0 <= j <= u.numBodies
    ensures ListShape(Detect(u, absorbed, i, j).collisions, absorbed, i, j)
    decreases j
  {
    if j > 0 {
      DetectListShape(u, absorbed, i, j - 1);
      DetectUnfold(u, absorbed, i, j);
      var d := Detect(u, absorbed, i, j - 1).collisions;
      var m := j - 1;
      if m == i || absorbed[m] || !Close(u, i, m) {
        ListShapeWiden(d, absorbed, i, m);
      } else {
        ListShapeAppend(d, absorbed, i, m);
      }
    }
  }

  /** One step of the inner loop: body j - 1 is appended exactly when it passes the three tests. */
  lemma DetectUnfold(u: Universe, absorbed: seq<bool>, i: int, j: int)
    requires u.Valid() && |absorbed| == u.numBodies && 0 <= i < u.numBodies && 0 < j <= u.numBodies
    ensures var d := Detect(u, absorbed, i, j - 1).collisions;
            var m := j - 1;
            Detect(u, absorbed, i, j).collisions == if m == i || absorbed[m] || !Close(u, i, m) then d else d + [m]
    ensures var b := Detect(u, absorbed, i, j - 1).biggest;
            var m := j - 1;
            Detect(u, absorbed, i, j).biggest ==
            if m == i || absorbed[m] || !Close(u, i, m) || u.weights[m] <= u.weights[b] then b else m
  {
  }

  lemma ListShapeWiden(d: seq<int>, absorbed: seq<bool>, i: int, m: int)
    requires forall k :: 0 <= k < |d| ==> 0 <= d[k] < |absorbed|
    requires ListShape(d, absorbed, i, m)
    ensures ListShape(d, absorbed, i, m + 1)
  {
  }

  lemma ListShapeAppend(d: seq<int>, absorbed: seq<bool>, i: int, m: int)
    requires forall k :: 0 <= k < |d| ==> 0 <= d[k] < |absorbed|
    requires ListShape(d, absorbed, i, m) && 0 <= m < |absorbed| && m != i && !absorbed[m]
    ensures ListShape(d + [m], absorbed, i, m + 1)
  {
    var c := d + [m];
    assert forall k :: 0 <= k < |d| ==> c[k] == d[k];
    assert c[|d|] == m;
  }

  /**
   Body m other than i is in i's collision list exactly when it is close to i
   and not absorbed.
   */
  lemma {:induction false} DetectMembers(u: Universe, absorbed: seq<bool>, i: int, j: int, m: int)
    requires u.Valid() && |absorbed| == u.numBodies && 0 <= i < u.numBodies && 0 <= j <= u.numBodies
    requires 0 <= m < u.numBodies && m != i
    ensures m in Detect(u, absorbed, i, j).collisions <==> m < j && !absorbed[m] && Close(u, i, m)
    decreases j
  {
    if j > 0 {
      DetectMembers(u, absorbed, i, j - 1, m);
    }
  }

  /** Position p of list c holds b, no listed body is heavier than b, and none before p is as heavy. */
  predicate HeaviestAt(ws: seq<real>, c: seq<int>, b: int, p: int) {
    0 <= p < |c| && c[p] == b && 0 <= b < |ws| &&
    (forall k :: 0 <= k < |c| ==> 0 <= c[k] < |ws| && ws[c[k]] <= ws[b]) &&
    (forall k :: 0 <= k < p ==> ws[c[k]] < ws[b])
  }

  /** `biggest` is the first body of the list, in list order, of maximal weight. */
  ghost predicate FirstHeaviest(ws: seq<real>, c: seq<int>, b: int) {
    exists p :: HeaviestAt(ws, c, b, p)
  }

  /** Appending m keeps the first-heaviest witness, or makes m the heaviest when strictly heavier. */
  lemma HeaviestAppend(ws: seq<real>, c: seq<int>, b: int, p: int, m: int)
    requires forall k :: 0 <= k < |c| ==> 0 <= c[k] < |ws|
    requires 0 <= m < |ws| && HeaviestAt(ws, c, b, p)
    ensures ws[m] > ws[b] ==> HeaviestAt(ws, c + [m], m, |c|)
    ensures ws[m] <= ws[b] ==> HeaviestAt(ws, c + [m], b, p)
  {
    assert forall k :: 0 <= k < |c| ==> (c + [m])[k] == c[k];
  }

  lemma {:induction false} DetectFindsFirstHeaviest(u: Universe, absorbed: seq<bool>, i: int, j: int)
    requires u.Valid() && |absorbed| == u.numBodies && 0 <= i < u.numBodies && 0 <= j <= u.numBodies
    ensures FirstHeaviest(u.weights, Detect(u, absorbed, i, j).collisions, Detect(u, absorbed, i, j).biggest)
    decreases j
  {
    if j == 0 {
      var e := Detect(u, absorbed, i, j);
      assert HeaviestAt(u.weights, e.collisions, e.biggest, 0);
    } else {
      DetectFindsFirstHeaviest(u, absorbed, i, j - 1);
      var d := Detect(u, absorbed, i, j - 1);
      var p :| HeaviestAt(u.weights, d.collisions, d.biggest, p);
      DetectHeaviestStep(u, absorbed, i, j, p);
    }
  }

  /** One step of the inner loop keeps a first-heaviest witness. */
  lemma DetectHeaviestStep(u: Universe, absorbed: seq<bool>, i: int, j: int, p: int)
    requires u.Valid() && |absorbed| == u.numBodies && 0 <= i < u.numBodies && 0 < j <= u.numBodies
    requires HeaviestAt(u.weights, Detect(u, absorbed, i, j - 1).collisions, Detect(u, absorbed, i, j - 1).biggest, p)
    ensures FirstHeaviest(u.weights, Detect(u, absorbed, i, j).collisions, Detect(u, absorbed, i, j).biggest)
  {
    DetectUnfold(u, absorbed, i, j);
    var d := Detect(u, absorbed, i, j - 1);
    var e := Detect(u, absorbed, i, j);
    var m := j - 1;
    if m == i || absorbed[m] || !Close(u, i, m) {
      assert HeaviestAt(u.weights, e.collisions, e.biggest, p);
    } else {
      HeaviestAppend(u.weights, d.collisions, d.biggest, p, m);
      if u.weights[m] > u.weights[d.biggest] {
        assert HeaviestAt(u.weights, e.collisions, e.biggest, |d.collisions|);
      } else {
        assert HeaviestAt(u.weights, e.collisions, e.biggest, p);
      }
    }
  }

  /** With body i itself the first entry, i stays the heaviest unless some body is strictly heavier. */
  lemma IWinsTies(u: Universe, absorbed: seq<bool>, i: int)
    requires u.Valid() && |absorbed| == u.numBodies && 0 <= i < u.numBodies
    ensures var d := Detect(u, absorbed, i, u.numBodies);
            d.biggest != i ==> u.weights[d.biggest] > u.weights[i]
  {
    DetectFindsFirstHeaviest(u, absorbed, i, u.numBodies);
  }

  // ---------------------------------------------------------------------------
  // One merge step
  // ---------------------------------------------------------------------------

  /** A body's momentum, weight times velocity. */
  function Momentum(u: Universe, k: int): Vec
    requires u.Valid() && 0 <= k < u.numBodies
  {
    u.velocities[k].Scale(u.weights[k])
  }

  /**
   One iteration of the merge loop: body c's weight is added to body b's, and
   b's velocity becomes the weight-averaged velocity of the two.
   */
  function MergeInto(u: Universe, b: int, c: int): (r: Universe)
    requires Ready(u) && 0 <= b < u.numBodies && 0 <= c < u.numBodies
    ensures Ready(r) && SameFrame(r, u)
  {
    var m2 := u.weights[b] + u.weights[c];
    var v := u.velocities[b].Scale(u.weights[b]).Plus(u.velocities[c].Scale(u.weights[c])).Divide(m2);
    u.(velocities := u.velocities[b := v], weights := u.weights[b := m2])
  }

  /** A merge adds c's weight onto b's and changes no other body. */
  lemma MergeIntoAddsWeight(u: Universe, b: int, c: int)
    requires Ready(u) && 0 <= b < u.numBodies && 0 <= c < u.numBodies
    ensures var r := MergeInto(u, b, c);
            r.weights[b] == u.weights[b] + u.weights[c] > u.weights[b] &&
            forall k :: 0 <= k < u.numBodies && k != b ==>
              r.weights[k] == u.weights[k] && r.velocities[k] == u.velocities[k]
  {
  }

  /** A merge conserves momentum: b's new momentum is the sum of both old momenta. */
  lemma MergeIntoAddsMomentum(u: Universe, b: int, c: int)
    requires Ready(u) && 0 <= b < u.numBodies && 0 <= c < u.numBodies
    ensures Momentum(MergeInto(u, b, c), b) == Momentum(u, b).Plus(Momentum(u, c))
  {
    var m2 := u.weights[b] + u.weights[c];
    var v := u.velocities[b].Scale(u.weights[b]).Plus(u.velocities[c].Scale(u.weights[c])).Divide(m2);
    assert MergeInto(u, b, c).velocities[b] == v;
    assert v.Scale(m2) == u.velocities[b].Scale(u.weights[b]).Plus(u.velocities[c].Scale(u.weights[c]));
  }

  // ---------------------------------------------------------------------------
  // find_collisions as written
  // ---------------------------------------------------------------------------

  /** The total weight of bodies 0 .. j-1 other than b. */
  function WeightOfOthers(u: Universe, b: int, j: int): real
    requires u.Valid() && 0 <= j <= u.numBodies
    decreases j
  {
    if j == 0 then 0.0
    else WeightOfOthers(u, b, j - 1) + (if j - 1 == b then 0.0 else u.weights[j - 1])
  }

  /** The total momentum of bodies 0 .. j-1 other than b. */
  function MomentumOfOthers(u: Universe, b: int, j: int): Vec
    requires u.Valid() && 0 <= j <= u.numBodies
    decreases j
  {
    if j == 0 then Zero
    else MomentumOfOthers(u, b, j - 1).Plus(if j - 1 == b then Zero else Momentum(u, j - 1))
  }

  /**
   The merge loop as written after its iterations 0 .. j-1: the counter is
   used as a body index.
   */
  function MergeAsWritten(u: Universe, b: int, j: int): (r: Universe)
    requires Ready(u) && 0 <= b < u.numBodies && 0 <= j <= u.numBodies
    decreases j
    ensures Ready(r) && SameFrame(r, u)
  {
    if j == 0 then u
    else
      var v := MergeAsWritten(u, b, j - 1);
      if j - 1 == b then v else MergeInto(v, b, j - 1)
  }

  /**
   As written, the merge loop folds bodies 0 .. j-1 other than b into b, by
   index, and leaves every other body as it was.
   */
  lemma {:induction false} MergeAsWrittenFoldsByIndex(u: Universe, b: int, j: int)
    requires Ready(u) && 0 <= b < u.numBodies && 0 <= j <= u.numBodies
    ensures var r := MergeAsWritten(u, b, j);
            r.weights[b] == u.weights[b] + WeightOfOthers(u, b, j) &&
            forall k :: 0 <= k < u.numBodies && k != b ==>
              r.weights[k] == u.weights[k] && r.velocities[k] == u.velocities[k]
    decreases j
  {
    if j > 0 {
      MergeAsWrittenFoldsByIndex(u, b, j - 1);
      var v := MergeAsWritten(u, b, j - 1);
      if j - 1 != b {
        MergeIntoAddsWeight(v, b, j - 1);
      }
    }
  }

  /** As written, b ends with its own momentum plus that of bodies 0 .. j-1 other than b. */
  lemma {:induction false} MergeAsWrittenAddsMomentum(u: Universe, b: int, j: int)
    requires Ready(u) && 0 <= b < u.numBodies && 0 <= j <= u.numBodies
    ensures Momentum(MergeAsWritten(u, b, j), b) == Momentum(u, b).Plus(MomentumOfOthers(u, b, j))
    decreases j
  {
    if j > 0 {
      MergeAsWrittenAddsMomentum(u, b, j - 1);
      var v := MergeAsWritten(u, b, j - 1);
      var others := MomentumOfOthers(u, b, j - 1);
      if j - 1 != b {
        MergeAsWrittenFoldsByIndex(u, b, j - 1);
        MomentumOfUntouched(v, u, j - 1);
        MergeIntoAddsMomentum(v, b, j - 1);
        PlusAssociates(Momentum(u, b), others, Momentum(u, j - 1));
      } else {
        PlusZero(others);
      }
    }
  }

  /** A body whose weight and velocity are unchanged keeps its momentum. */
  lemma MomentumOfUntouched(v: Universe, u: Universe, k: int)
    requires u.Valid() && v.Valid() && 0 <= k < u.numBodies && k < v.numBodies
    requires v.weights[k] == u.weights[k] && v.velocities[k] == u.velocities[k]
    ensures Momentum(v, k) == Momentum(u, k)
  {
  }

  lemma PlusAssociates(a: Vec, b: Vec, c: Vec)
    ensures a.Plus(b).Plus(c) == a.Plus(b.Plus(c))
  {
  }

  lemma PlusZero(a: Vec)
    ensures a.Plus(Zero) == a
  {
  }

  /** One iteration of the outer loop as written. */
  function OuterStepAsWritten(u: Universe, absorbed: seq<bool>, i: int): (r: Universe)
    requires Ready(u) && |absorbed| == u.numBodies && 0 <= i < u.numBodies
    ensures Ready(r) && SameFrame(r, u)
  {
    if absorbed[i] then u
    else
      var d := Detect(u, absorbed, i, u.numBodies);
      MergeAsWritten(u, d.biggest, |d.collisions|)
  }

  /**
   As written, an outer iteration writes only the heaviest body b of i's
   list, which gains the weight of bodies 0 .. size-1 other than b, where
   size is the length of the list.
   */
  lemma AsWrittenStepTouchesOnlyHeaviest(u: Universe, absorbed: seq<bool>, i: int)
    requires Ready(u) && |absorbed| == u.numBodies && 0 <= i < u.numBodies && !absorbed[i]
    ensures var d := Detect(u, absorbed, i, u.numBodies);
            var r := OuterStepAsWritten(u, absorbed, i);
            r.weights[d.biggest] == u.weights[d.biggest] + WeightOfOthers(u, d.biggest, |d.collisions|) &&
            forall k :: 0 <= k < u.numBodies && k != d.biggest ==>
              r.weights[k] == u.weights[k] && r.velocities[k] == u.velocities[k]
  {
    var d := Detect(u, absorbed, i, u.numBodies);
    MergeAsWrittenFoldsByIndex(u, d.biggest, |d.collisions|);
  }

  /** WeightOfOthers is a sum of positive weights. */
  lemma {:induction false} WeightOfOthersNonNegative(u: Universe, b: int, j: int)
    requires Ready(u) && 0 <= j <= u.numBodies
    ensures WeightOfOthers(u, b, j) >= 0.0
    decreases j
  {
    if j > 0 {
      WeightOfOthersNonNegative(u, b, j - 1);
    }
  }

  /** The outer loop as written after its iterations 0 .. i-1; nothing writes the flags. */
  function OuterAsWritten(u: Universe, absorbed: seq<bool>, i: int): (r: Universe)
    requires Ready(u) && |absorbed| == u.numBodies && 0 <= i <= u.numBodies
    decreases i
    ensures Ready(r) && SameFrame(r, u)
  {
    if i == 0 then u
    else OuterStepAsWritten(OuterAsWritten(u, absorbed, i - 1), absorbed, i - 1)
  }

  /** As written, no weight ever decreases. */
  lemma {:induction false} AsWrittenNeverLowersWeight(u: Universe, absorbed: seq<bool>, i: int)
    requires Ready(u) && |absorbed| == u.numBodies && 0 <= i <= u.numBodies
    ensures forall k :: 0 <= k < u.numBodies ==> OuterAsWritten(u, absorbed, i).weights[k] >= u.weights[k]
    decreases i
  {
    if i > 0 {
      AsWrittenNeverLowersWeight(u, absorbed, i - 1);
      AsWrittenStepNeverLowersWeight(OuterAsWritten(u, absorbed, i - 1), absorbed, i - 1);
    }
  }

  lemma AsWrittenStepNeverLowersWeight(v: Universe, absorbed: seq<bool>, i: int)
    requires Ready(v) && |absorbed| == v.numBodies && 0 <= i < v.numBodies
    ensures forall k :: 0 <= k < v.numBodies ==> OuterStepAsWritten(v, absorbed, i).weights[k] >= v.weights[k]
  {
    if !absorbed[i] {
      var d := Detect(v, absorbed, i, v.numBodies);
      AsWrittenStepTouchesOnlyHeaviest(v, absorbed, i);
      WeightOfOthersNonNegative(v, d.biggest, |d.collisions|);
    }
  }

  /** `find_collisions` as written, as a function of the universe. */
  function FindCollisionsAsWritten(u: Universe): (r: Universe)
    requires Ready(u)
    ensures Ready(r) && SameFrame(r, u)
  {
    OuterAsWritten(u, AllFalse(u.numBodies), u.numBodies)
  }

  /** The detection loop of one outer iteration, with the source's loop. */
  method DetectLoop(u: Universe, isAbsorbed: seq<bool>, i: int) returns (collisions: seq<int>, biggest: int)
    requires u.Valid() && |isAbsorbed| == u.numBodies && 0 <= i < u.numBodies
    ensures Candidates(collisions, biggest) == Detect(u, isAbsorbed, i, u.numBodies)
  {
    collisions := [i];
    biggest := i;
    var j := 0;
    while j < u.numBodies
      invariant 0 <= j <= u.numBodies
      invariant Candidates(collisions, biggest) == Detect(u, isAbsorbed, i, j)
    {
      if !(i == j || isAbsorbed[j]) {
        var connect := u.positions[j].Minus(u.positions[i]);
        if connect.NormSquared() < SquaredRadius {
          collisions := collisions + [j];
          if u.weights[j] > u.weights[biggest] {
            biggest := j;
          }
        }
      }
      j := j + 1;
    }
  }

  /** The body of the merge loop: the source's statements for one absorbed body. */
  method MergeStep(u: Universe, biggest: int, j: int) returns (r: Universe)
    requires Ready(u) && 0 <= biggest < u.numBodies && 0 <= j < u.numBodies
    ensures r == MergeInto(u, biggest, j)
  {
    var m2 := u.weights[biggest] + u.weights[j];
    var v := u.velocities[biggest].Scale(u.weights[biggest]).Plus(u.velocities[j].Scale(u.weights[j])).Divide(m2);
    r := u.(velocities := u.velocities[biggest := v], weights := u.weights[biggest := m2]);
  }

  /** The merge loop as written, with the source's loop: the counter is used as a body index. */
  method MergeLoop(u: Universe, size: int, biggest: int) returns (r: Universe)
    requires Ready(u) && 0 <= biggest < u.numBodies && 0 <= size <= u.numBodies
    ensures r == MergeAsWritten(u, biggest, size)
  {
    r := u;
    var j := 0;
    while j < size
      invariant 0 <= j <= size
      invariant Ready(r) && r.numBodies == u.numBodies
      invariant r == MergeAsWritten(u, biggest, j)
    {
      if j != biggest {
        r := MergeStep(r, biggest, j);
      }
      j := j + 1;
    }
  }

  /** One iteration of the outer loop as written: detection, then the merge loop. */
  method OuterStep(u: Universe, isAbsorbed: seq<bool>, i: int) returns (r: Universe)
    requires Ready(u) && |isAbsorbed| == u.numBodies && 0 <= i < u.numBodies
    ensures r == OuterStepAsWritten(u, isAbsorbed, i)
  {
    r := u;
    if !isAbsorbed[i] {
      var collisions, biggest := DetectLoop(u, isAbsorbed, i);
      r := MergeLoop(u, |collisions|, biggest);
    }
  }

  /** The outer loop as written, over the given flags, which it never writes. */
  method OuterLoop(u: Universe, absorbed: seq<bool>) returns (r: Universe)
    requires Ready(u) && |absorbed| == u.numBodies
    ensures r == OuterAsWritten(u, absorbed, u.numBodies)
  {
    r := u;
    var i := 0;
    while i < u.numBodies
      invariant 0 <= i <= u.numBodies
      invariant r == OuterAsWritten(u, absorbed, i)
    {
      r := OuterStep(r, absorbed, i);
      i := i + 1;
    }
  }

  /**
   `find_collisions` as written: the flags start false and stay false. It
   changes weights and velocities only, keeps every weight positive, and
   never lowers one.
   */
  method FindCollisions(u: Universe) returns (r: Universe)
    requires Ready(u)
    ensures r == FindCollisionsAsWritten(u)
    ensures Ready(r) && SameFrame(r, u)
    ensures forall k :: 0 <= k < u.numBodies ==> r.weights[k] >= u.weights[k]
  {
    var isAbsorbed := AllFalse(u.numBodies);
    r := OuterLoop(u, isAbsorbed);
    AsWrittenNeverLowersWeight(u, isAbsorbed, u.numBodies);
  }

  // ---------------------------------------------------------------------------
  // find_collisions as evidently intended
  // ---------------------------------------------------------------------------

  /** The universe with the `is_absorbed` flags the corrected pass maintains. */
  datatype PassState = PassState(u: Universe, absorbed: seq<bool>)
  {
    predicate Ok() {
      Ready(u) && |absorbed| == u.numBodies
    }
  }

  /** The state the corrected pass starts from: nothing absorbed. */
  function Start(u: Universe): (s: PassState)
    requires Ready(u)
    ensures s.Ok() && s.u == u && forall k :: 0 <= k < u.numBodies ==> !s.absorbed[k]
  {
    PassState(u, AllFalse(u.numBodies))
  }

  /** The sum of xs[k] over the indices k < n whose flag is not set. */
  function LiveSum(xs: seq<real>, absorbed: seq<bool>, n: int): real
    requires 0 <= n <= |xs| && n <= |absorbed|
    decreases n
  {
    if n == 0 then 0.0
    else LiveSum(xs, absorbed, n - 1) + (if absorbed[n - 1] then 0.0 else xs[n - 1])
  }

  /**
   Adding xs[c] onto xs[b] and setting c's flag moves c's share of the live
   sum onto b; with both below n, the live sum does not change.
   */
  lemma {:induction false} LiveSumMove(xs: seq<real>, absorbed: seq<bool>, b: int, c: int, n: int)
    requires |xs| == |absorbed| && 0 <= b < |xs| && 0 <= c < |xs| && b != c
    requires !absorbed[b] && !absorbed[c] && 0 <= n <= |xs|
    ensures LiveSum(xs[b := xs[b] + xs[c]], absorbed[c := true], n) + (if c < n then xs[c] else 0.0) ==
            LiveSum(xs, absorbed, n) + (if b < n then xs[c] else 0.0)
    decreases n
  {
    if n > 0 {
      LiveSumMove(xs, absorbed, b, c, n - 1);
    }
  }

  /** The x and y components of every body's momentum. */
  function MomentaX(u: Universe): (xs: seq<real>)
    requires u.Valid()
    ensures |xs| == u.numBodies && forall k :: 0 <= k < u.numBodies ==> xs[k] == Momentum(u, k).x
  {
    seq(u.numBodies, k requires 0 <= k < u.numBodies => Momentum(u, k).x)
  }

  function MomentaY(u: Universe): (ys: seq<real>)
    requires u.Valid()
    ensures |ys| == u.numBodies && forall k :: 0 <= k < u.numBodies ==> ys[k] == Momentum(u, k).y
  {
    seq(u.numBodies, k requires 0 <= k < u.numBodies => Momentum(u, k).y)
  }

  /** The total weight of the bodies not absorbed. */
  function LiveWeight(s: PassState): real
    requires s.Ok()
  {
    LiveSum(s.u.weights, s.absorbed, s.u.numBodies)
  }

  /** The total momentum of the bodies not absorbed. */
  function LiveMomentum(s: PassState): Vec
    requires s.Ok()
  {
    Vec(LiveSum(MomentaX(s.u), s.absorbed, s.u.numBodies), LiveSum(MomentaY(s.u), s.absorbed, s.u.numBodies))
  }

  /** Merge body c into body b and mark c absorbed. */
  function Absorb(s: PassState, b: int, c: int): (r: PassState)
    requires s.Ok() && 0 <= b < s.u.numBodies && 0 <= c < s.u.numBodies
    ensures r.Ok() && SameFrame(r.u, s.u)
  {
    PassState(MergeInto(s.u, b, c), s.absorbed[c := true])
  }

  /** Absorbing adds c's weight and momentum onto b and changes no other body. */
  lemma AbsorbAdds(s: PassState, b: int, c: int)
    requires s.Ok() && 0 <= b < s.u.numBodies && 0 <= c < s.u.numBodies
    ensures var r := Absorb(s, b, c);
            r.u.weights == s.u.weights[b := s.u.weights[b] + s.u.weights[c]] &&
            MomentaX(r.u) == MomentaX(s.u)[b := MomentaX(s.u)[b] + MomentaX(s.u)[c]] &&
            MomentaY(r.u) == MomentaY(s.u)[b := MomentaY(s.u)[b] + MomentaY(s.u)[c]]
  {
    var r := Absorb(s, b, c);
    MergeIntoAddsWeight(s.u, b, c);
    MergeIntoAddsMomentum(s.u, b, c);
    forall k | 0 <= k < s.u.numBodies && k != b
      ensures Momentum(r.u, k) == Momentum(s.u, k)
    {
    }
  }

  /**
   Absorbing a live body into a different live body changes neither the live
   weight nor the live momentum.
   */
  lemma AbsorbConserves(s: PassState, b: int, c: int)
    requires s.Ok() && 0 <= b < s.u.numBodies && 0 <= c < s.u.numBodies && b != c
    requires !s.absorbed[b] && !s.absorbed[c]
    ensures LiveWeight(Absorb(s, b, c)) == LiveWeight(s)
    ensures LiveMomentum(Absorb(s, b, c)) == LiveMomentum(s)
  {
    AbsorbAdds(s, b, c);
    var n := s.u.numBodies;
    LiveSumMove(s.u.weights, s.absorbed, b, c, n);
    LiveSumMove(MomentaX(s.u), s.absorbed, b, c, n);
    LiveSumMove(MomentaY(s.u), s.absorbed, b, c, n);
  }

  /**
   The merge loop as intended after its iterations over list positions
   0 .. p-1: every listed body other than b is absorbed into b.
   */
  function MergeListed(s: PassState, c: seq<int>, b: int, p: int): (r: PassState)
    requires s.Ok() && 0 <= b < s.u.numBodies && 0 <= p <= |c|
    requires forall k :: 0 <= k < |c| ==> 0 <= c[k] < s.u.numBodies
    decreases p
    ensures r.Ok() && SameFrame(r.u, s.u)
  {
    if p == 0 then s
    else
      var v := MergeListed(s, c, b, p - 1);
      if c[p - 1] == b then v else Absorb(v, b, c[p - 1])
  }

  /** No index is listed twice. */
  predicate Distinct(c: seq<int>) {
    forall x, y :: 0 <= x < y < |c| ==> c[x] != c[y]
  }

  /**
   The merge loop sets only the flags of the list entries it has passed,
   and never the flag of the body they are merged into.
   */
  lemma {:induction false} MergeListedLeavesRest(s: PassState, c: seq<int>, b: int, p: int, q: int)
    requires s.Ok() && 0 <= b < s.u.numBodies && 0 <= p <= q < |c|
    requires forall k :: 0 <= k < |c| ==> 0 <= c[k] < s.u.numBodies
    requires Distinct(c)
    ensures MergeListed(s, c, b, p).absorbed[c[q]] == s.absorbed[c[q]]
    ensures MergeListed(s, c, b, p).absorbed[b] == s.absorbed[b]
    decreases p
  {
    if p > 0 {
      MergeListedLeavesRest(s, c, b, p - 1, q);
      assert c[p - 1] != c[q];
    }
  }

  /** One step of the intended merge loop conserves live weight and momentum. */
  lemma MergeListedStepConserves(s: PassState, c: seq<int>, b: int, p: int)
    requires s.Ok() && 0 <= b < s.u.numBodies && 0 < p <= |c|
    requires forall k :: 0 <= k < |c| ==> 0 <= c[k] < s.u.numBodies && !s.absorbed[c[k]]
    requires Distinct(c) && !s.absorbed[b]
    ensures LiveWeight(MergeListed(s, c, b, p)) == LiveWeight(MergeListed(s, c, b, p - 1))
    ensures LiveMomentum(MergeListed(s, c, b, p)) == LiveMomentum(MergeListed(s, c, b, p - 1))
  {
    var x := c[p - 1];
    if x != b {
      MergeListedLeavesRest(s, c, b, p - 1, p - 1);
      AbsorbConserves(MergeListed(s, c, b, p - 1), b, x);
    }
  }

  /** Merging distinct, live list entries into a live b conserves live weight and momentum. */
  lemma {:induction false} MergeListedConserves(s: PassState, c: seq<int>, b: int, p: int)
    requires s.Ok() && 0 <= b < s.u.numBodies && 0 <= p <= |c|
    requires forall k :: 0 <= k < |c| ==> 0 <= c[k] < s.u.numBodies && !s.absorbed[c[k]]
    requires Distinct(c) && !s.absorbed[b]
    ensures LiveWeight(MergeListed(s, c, b, p)) == LiveWeight(s)
    ensures LiveMomentum(MergeListed(s, c, b, p)) == LiveMomentum(s)
    decreases p
  {
    if p > 0 {
      MergeListedConserves(s, c, b, p - 1);
      MergeListedStepConserves(s, c, b, p);
    }
  }

  /**
   One outer iteration as intended: skip absorbed bodies, detect as written,
   then absorb every listed body other than the heaviest into it.
   */
  function OuterStepCorrected(s: PassState, i: int): (r: PassState)
    requires s.Ok() && 0 <= i < s.u.numBodies
    ensures r.Ok() && SameFrame(r.u, s.u)
  {
    if s.absorbed[i] then s
    else
      var d := Detect(s.u, s.absorbed, i, s.u.numBodies);
      MergeListed(s, d.collisions, d.biggest, |d.collisions|)
  }

  lemma OuterStepCorrectedConserves(s: PassState, i: int)
    requires s.Ok() && 0 <= i < s.u.numBodies
    ensures LiveWeight(OuterStepCorrected(s, i)) == LiveWeight(s)
    ensures LiveMomentum(OuterStepCorrected(s, i)) == LiveMomentum(s)
  {
    if !s.absorbed[i] {
      var d := Detect(s.u, s.absorbed, i, s.u.numBodies);
      var c := d.collisions;
      DetectListShape(s.u, s.absorbed, i, s.u.numBodies);
      assert ListShape(c, s.absorbed, i, s.u.numBodies);
      DetectFindsFirstHeaviest(s.u, s.absorbed, i, s.u.numBodies);
      forall x, y | 0 <= x < y < |c|
        ensures c[x] != c[y]
      {
        if x == 0 {
          assert c[y] != i;
        }
      }
      var p :| HeaviestAt(s.u.weights, c, d.biggest, p);
      assert !s.absorbed[c[p]];
      MergeListedConserves(s, c, d.biggest, |c|);
    }
  }

  function OuterCorrected(u: Universe, i: int): (r: PassState)
    requires Ready(u) && 0 <= i <= u.numBodies
    decreases i
    ensures r.Ok() && SameFrame(r.u, u)
  {
    if i == 0 then Start(u)
    else OuterStepCorrected(OuterCorrected(u, i - 1), i - 1)
  }

  /** The collision pass as evidently intended: bodies merged into another are marked absorbed. */
  function FindCollisionsCorrected(u: Universe): (r: PassState)
    requires Ready(u)
    ensures r.Ok() && SameFrame(r.u, u)
  {
    OuterCorrected(u, u.numBodies)
  }

  lemma OuterCorrectedStepConserves(u: Universe, i: int)
    requires Ready(u) && 0 < i <= u.numBodies
    ensures LiveWeight(OuterCorrected(u, i)) == LiveWeight(OuterCorrected(u, i - 1))
    ensures LiveMomentum(OuterCorrected(u, i)) == LiveMomentum(OuterCorrected(u, i - 1))
  {
    var s := OuterCorrected(u, i - 1);
    OuterStepCorrectedConserves(s, i - 1);
  }

  /**
   The corrected pass conserves the total weight and the total momentum of
   the bodies not absorbed; nothing is absorbed at the start, so these are
   the totals over the whole input.
   */
  lemma {:induction false} CorrectedConserves(u: Universe, i: int)
    requires Ready(u) && 0 <= i <= u.numBodies
    ensures LiveWeight(OuterCorrected(u, i)) == LiveWeight(Start(u))
    ensures LiveMomentum(OuterCorrected(u, i)) == LiveMomentum(Start(u))
    decreases i
  {
    if i > 0 {
      CorrectedConserves(u, i - 1);
      OuterCorrectedStepConserves(u, i);
    }
  }

  // ---------------------------------------------------------------------------
  // Two-body scenarios separating the as-written pass from the intended one
  // ---------------------------------------------------------------------------

  /** Two bodies at rest, weights 1 and 2, body 0 at the origin and body 1 at `p`. */
  function Pair(p: Vec): (u: Universe)
    ensures Ready(u) && u.numBodies == 2
  {
    Universe(2, [Zero, p], [Zero, Zero], [Zero, Zero], [1.0, 2.0], 0)
  }

  /** Three times the interaction radius apart: no collision. */
  const FarPair: Universe := Pair(Vec(300000000.0, 0.0))

  /** One unit apart: a collision. */
  const ClosePair: Universe := Pair(Vec(1.0, 0.0))

  lemma FarPairApart()
    ensures !Close(FarPair, 0, 1) && !Close(FarPair, 1, 0)
  {
    FarPairApartFrom(0, 1);
    FarPairApartFrom(1, 0);
  }

  lemma FarPairApartFrom(i: int, j: int)
    requires i == 1 - j && 0 <= j <= 1
    ensures !Close(FarPair, i, j)
  {
    var d := FarPair.positions[j].Minus(FarPair.positions[i]);
    assert d.y == 0.0;
    assert d.x == 300000000.0 || d.x == -300000000.0;
    assert d.x * d.x == 90000000000000000.0;
  }

  /**
   As written, two bodies that never collide still merge: body 1 ends with
   weight 3 while body 0 keeps weight 1, so the total weight grows from 3 to 4.
   */
  lemma AsWrittenFarPairGainsWeight()
    ensures !Close(FarPair, 0, 1) && !Close(FarPair, 1, 0)
    ensures FindCollisionsAsWritten(FarPair).weights == [1.0, 3.0]
  {
    FarPairApart();
    var u := FarPair;
    var f := AllFalse(2);
    assert Detect(u, f, 0, 1) == Candidates([0], 0);
    assert Detect(u, f, 0, 2) == Candidates([0], 0);
    assert MergeAsWritten(u, 0, 1) == u;
    assert OuterAsWritten(u, f, 1) == u;
    assert Detect(u, f, 1, 1) == Candidates([1], 1);
    assert Detect(u, f, 1, 2) == Candidates([1], 1);
    assert MergeAsWritten(u, 1, 1) == MergeInto(u, 1, 0);
    assert OuterAsWritten(u, f, 2) == MergeInto(u, 1, 0);
  }

  /**
   As written, a colliding pair keeps both bodies and merges twice: the
   result weighs 1 and 4, five in total where the pair weighed three.
   */
  lemma AsWrittenClosePairDoubleCounts()
    ensures Close(ClosePair, 0, 1)
    ensures FindCollisionsAsWritten(ClosePair).weights == [1.0, 4.0]
  {
    var u := ClosePair;
    var f := AllFalse(2);
    assert Detect(u, f, 0, 1) == Candidates([0], 0);
    assert Detect(u, f, 0, 2) == Candidates([0, 1], 1);
    var u1 := MergeInto(u, 1, 0);
    assert MergeAsWritten(u, 1, 1) == u1;
    assert MergeAsWritten(u, 1, 2) == u1;
    assert OuterAsWritten(u, f, 1) == u1;
    assert u1.weights == [1.0, 3.0];
    assert Detect(u1, f, 1, 1) == Candidates([1, 0], 1);
    assert Detect(u1, f, 1, 2) == Candidates([1, 0], 1);
    var u2 := MergeInto(u1, 1, 0);
    assert MergeAsWritten(u1, 1, 2) == u2;
    assert OuterAsWritten(u, f, 2) == u2;
  }

  /** As intended, a pair that does not collide is left alone. */
  lemma CorrectedFarPairUnchanged()
    ensures FindCollisionsCorrected(FarPair) == Start(FarPair)
  {
    FarPairApart();
    var s := Start(FarPair);
    assert Detect(s.u, s.absorbed, 0, 2) == Candidates([0], 0);
    assert MergeListed(s, [0], 0, 1) == s;
    assert OuterCorrected(FarPair, 1) == s;
    assert Detect(s.u, s.absorbed, 1, 2) == Candidates([1], 1);
    assert MergeListed(s, [1], 1, 1) == s;
  }

  /** As intended, the lighter body of a colliding pair is absorbed into the heavier one. */
  lemma CorrectedClosePairMerges()
    ensures FindCollisionsCorrected(ClosePair).u.weights == [1.0, 3.0]
    ensures FindCollisionsCorrected(ClosePair).absorbed == [true, false]
  {
    var s := Start(ClosePair);
    assert Detect(s.u, s.absorbed, 0, 1) == Candidates([0], 0);
    assert Detect(s.u, s.absorbed, 0, 2) == Candidates([0, 1], 1);
    var s1 := Absorb(s, 1, 0);
    assert MergeListed(s, [0, 1], 1, 1) == s1;
    assert MergeListed(s, [0, 1], 1, 2) == s1;
    assert OuterCorrected(ClosePair, 1) == s1;
    assert s1.absorbed == [true, false];
    assert Detect(s1.u, s1.absorbed, 1, 1) == Candidates([1], 1);
    assert Detect(s1.u, s1.absorbed, 1, 2) == Candidates([1], 1);
    assert MergeListed(s1, [1], 1, 1) == s1;
    assert OuterCorrected(ClosePair, 2) == s1;
  }
}

=== FILE: geometry.dfy ===
/**
 Plane geometry shared by the quadtree, the universe and the collision pass:
 two-dimensional vectors over the reals and axis-aligned bounding boxes.

 The box's `subdivide` and `contains` live in a header that is not part of
 this model. Here a box is split at the midpoint of each axis into four
 sub-boxes, ordered NW, NE, SW, SE, and containment is HALF-OPEN on both axes
 (`min <= c < max`). That convention is the documented assumption under which
 every point of a box lies in exactly one of its four sub-boxes
 (`SubdivideIsPartition`).
 */
module Geometry {

  /** A `Vector2d<double>`, with reals in place of doubles. */
  datatype Vec = Vec(x: real, y: real)
  {
    function Plus(other: Vec): Vec {
      Vec(x + other.x, y + other.y)
    }

    function Minus(other: Vec): Vec {
      Vec(x - other.x, y - other.y)
    }

    function Scale(k: real): Vec {
      Vec(x * k, y * k)
    }

    function Divide(k: real): Vec
      requires k != 0.0
    {
      Vec(x / k, y / k)
    }

    /** The squared Euclidean length; `norm() < r` iff `NormSquared() < r * r` for r >= 0. */
    function NormSquared(): real {
      x * x + y * y
    }
  }

  /** The value of a default-constructed `Vector2d`. */
  const Zero: Vec := Vec(0.0, 0.0)

  /** A `BoundingBox(x_min, x_max, y_min, y_max)`. */
  datatype Box = Box(xMin: real, xMax: real, yMin: real, yMax: real)
  {
    function MidX(): real {
      (xMin + xMax) / 2.0
    }

    function MidY(): real {
      (yMin + yMax) / 2.0
    }

    /** Half-open containment: the lower edges belong to the box, the upper ones do not. */
    predicate Contains(p: Vec) {
      xMin <= p.x < xMax && yMin <= p.y < yMax
    }

    /** The midpoint split into four sub-boxes, in the order NW, NE, SW, SE. */
    function Subdivide(): (subs: seq<Box>)
      ensures |subs| == 4
      ensures xMin <= xMax && yMin <= yMax ==>
                forall k :: 0 <= k < 4 ==>
                  xMin <= subs[k].xMin <= subs[k].xMax <= xMax &&
                  yMin <= subs[k].yMin <= subs[k].yMax <= yMax
    {
      var mx := MidX();
      var my := MidY();
      [ Box(xMin, mx, my, yMax),   // NW
        Box(mx, xMax, my, yMax),   // NE
        Box(xMin, mx, yMin, my),   // SW
        Box(mx, xMax, yMin, my) ]  // SE
    }
  }

  /** True iff exactly the sub-box at index `k` of `subs` contains `p`. */
  predicate OnlyIn(subs: seq<Box>, k: int, p: Vec)
    requires 0 <= k < |subs|
  {
    subs[k].Contains(p) && forall j :: 0 <= j < |subs| && j != k ==> !subs[j].Contains(p)
  }

  /**
   The partition assumption made explicit: a point the box contains lies in
   exactly one of its four sub-boxes, and a point the box does not contain
   lies in none of them.
   */
  lemma SubdivideIsPartition(b: Box, p: Vec)
    ensures b.Contains(p) ==> exists k :: 0 <= k < 4 && OnlyIn(b.Subdivide(), k, p)
    ensures !b.Contains(p) ==> forall k :: 0 <= k < 4 ==> !b.Subdivide()[k].Contains(p)
  {
    var subs := b.Subdivide();
    if b.Contains(p) {
      var k := if p.y >= b.MidY() then (if p.x < b.MidX() then 0 else 1)
               else (if p.x < b.MidX() then 2 else 3);
      assert OnlyIn(subs, k, p);
    }
  }
}

=== FILE: quadtree.dfy ===
/**
 The quadtree built over a universe snapshot: the constructor with its mode
 switch, the serial recursive `construct`, the two task-parallel stubs, the
 post-order collection of bounding boxes, and the two aggregation entry
 points that delegate to the root.

 `construct` recurses for ever when two bodies share a position, so it takes
 a `fuel` bound on the recursion depth and returns `None` when the bound is
 reached; every property below is stated for runs that return `Some`.
 */
module Quadtrees {
  import opened Geometry
  import opened QuadtreeNodes
  import opened Universes

  datatype Option<T> = None | Some(value: T)

  /** A `Quadtree` owns exactly one root node. */
  datatype Quadtree = Quadtree(root: Node)

  /** The outcome of the constructor: a tree, the `invalid_argument` exception,
      or a construction that never returns (`construct` out of fuel). */
  datatype Outcome = Built(tree: Quadtree) | InvalidArgument | Diverges

  /** Body indices that can be looked up in the position and weight arrays. */
  predicate ValidIndices(u: Universe, idx: seq<int>) {
    forall k :: 0 <= k < |idx| ==> 0 <= idx[k] < |u.positions| && idx[k] < |u.weights|
  }

  predicate InBox(u: Universe, box: Box, idx: seq<int>)
    requires ValidIndices(u, idx)
  {
    forall k :: 0 <= k < |idx| ==> box.Contains(u.positions[idx[k]])
  }

  /** The leaf record a body contributes: its index, weight and position. */
  function BodyRecord(u: Universe, i: int): LeafRecord
    requires 0 <= i < |u.positions| && i < |u.weights|
  {
    LeafRecord(i, u.weights[i], u.positions[i])
  }

  function BodyRecords(u: Universe, idx: seq<int>): (rs: seq<LeafRecord>)
    requires ValidIndices(u, idx)
    ensures |rs| == |idx|
  {
    if idx == [] then [] else [BodyRecord(u, idx[0])] + BodyRecords(u, idx[1..])
  }

  /** The leaf `construct` makes for a region holding exactly one body. */
  function LeafFor(u: Universe, box: Box, i: int): (n: Node)
    requires 0 <= i < |u.positions| && i < |u.weights|
    ensures n.IsLeaf() && Leaves(n) == [BodyRecord(u, i)]
  {
    NewNode(box).(bodyId := i, cumulativeMass := u.weights[i], centerOfMass := u.positions[i],
                  cumulativeMassReady := true, centerOfMassReady := true)
  }

  /** The node `construct` makes for a non-empty quadrant, around the recursive call's result. */
  function Wrapper(box: Box, children: seq<Node>): Node {
    NewNode(box).(children := children)
  }

  /** A freshly constructed node, possibly with children attached. */
  predicate IsWrapper(n: Node) {
    n.bodyId == NoBody && n.cumulativeMass == 0.0 && n.centerOfMass == Zero &&
    !n.cumulativeMassReady && !n.centerOfMassReady
  }

  /** The bodies of `idx` whose position `box` contains, in their original order. */
  function Partition(u: Universe, box: Box, idx: seq<int>): (part: seq<int>)
    requires ValidIndices(u, idx)
    ensures ValidIndices(u, part) && InBox(u, box, part) && |part| <= |idx|
  {
    if idx == [] then []
    else if box.Contains(u.positions[idx[0]]) then [idx[0]] + Partition(u, box, idx[1..])
    else Partition(u, box, idx[1..])
  }

  // ---------------------------------------------------------------------------
  // construct (serial)
  // ---------------------------------------------------------------------------

  /**
   `Quadtree::construct`. No bodies: no nodes. One body: one leaf holding it,
   with both aggregates ready. Otherwise one wrapper node per non-empty
   sub-box, in sub-box order, whose children are the recursive result.
   */
  function Construct(u: Universe, box: Box, idx: seq<int>, fuel: nat): (r: Option<seq<Node>>)
    requires ValidIndices(u, idx)
    decreases fuel, 0
    ensures idx == [] ==> r == Some([])
    ensures |idx| == 1 ==> r == Some([LeafFor(u, box, idx[0])])
    ensures r.Some? && |idx| >= 2 ==>
              |r.value| <= 4 &&
              forall k :: 0 <= k < |r.value| ==> IsWrapper(r.value[k]) && r.value[k].box in box.Subdivide()
  {
    if idx == [] then Some([])
    else if |idx| == 1 then Some([LeafFor(u, box, idx[0])])
    else if fuel == 0 then None
    else Quadrants(u, box.Subdivide(), idx, fuel - 1)
  }

  /** The loop over the sub-boxes in `construct`. */
  function Quadrants(u: Universe, subs: seq<Box>, idx: seq<int>, fuel: nat): (r: Option<seq<Node>>)
    requires ValidIndices(u, idx)
    decreases fuel, 1, |subs|
    ensures r.Some? ==>
              |r.value| <= |subs| &&
              forall k :: 0 <= k < |r.value| ==> IsWrapper(r.value[k]) && r.value[k].box in subs
  {
    if subs == [] then Some([])
    else
      var part := Partition(u, subs[0], idx);
      var rest := Quadrants(u, subs[1..], idx, fuel);
      if part == [] then
        (if rest.Some? then Some(rest.value) else None)
      else
        match Construct(u, subs[0], part, fuel)
        case None => None
        case Some(children) =>
          if rest.None? then None
          else
            var r := [Wrapper(subs[0], children)] + rest.value;
            assert forall k :: 1 <= k < |r| ==> r[k] == rest.value[k - 1];
            Some(r)
  }

  /** One iteration of the sub-box loop: an empty part adds nothing, a non-empty one adds one wrapper in front. */
  lemma QuadrantsUnfold(u: Universe, subs: seq<Box>, idx: seq<int>, fuel: nat)
    requires ValidIndices(u, idx) && subs != []
    requires Quadrants(u, subs, idx, fuel).Some?
    ensures var part := Partition(u, subs[0], idx);
            var rest := Quadrants(u, subs[1..], idx, fuel);
            rest.Some? &&
            (part == [] ==> Quadrants(u, subs, idx, fuel).value == rest.value) &&
            (part != [] ==> Construct(u, subs[0], part, fuel).Some? &&
                            Quadrants(u, subs, idx, fuel).value ==
                            [Wrapper(subs[0], Construct(u, subs[0], part, fuel).value)] + rest.value)
  {
  }

  /** `n` is the node `construct` makes for its box: the box holds some of `idx`, and the children are built from them. */
  predicate BuiltFrom(u: Universe, idx: seq<int>, fuel: nat, n: Node)
    requires ValidIndices(u, idx)
  {
    Partition(u, n.box, idx) != [] && Construct(u, n.box, Partition(u, n.box, idx), fuel) == Some(n.children)
  }

  /** The sub-box loop succeeds when its tail does and the head's non-empty part can be built. */
  lemma QuadrantsCons(u: Universe, subs: seq<Box>, idx: seq<int>, fuel: nat)
    requires ValidIndices(u, idx) && subs != []
    requires Quadrants(u, subs[1..], idx, fuel).Some?
    requires Partition(u, subs[0], idx) != [] ==> Construct(u, subs[0], Partition(u, subs[0], idx), fuel).Some?
    ensures Quadrants(u, subs, idx, fuel).Some?
  {
  }

  /** The children of a node `construct` made for one non-empty sub-box, as the recursion defines them. */
  lemma {:induction false} QuadrantsStructure(u: Universe, subs: seq<Box>, idx: seq<int>, fuel: nat)
    requires ValidIndices(u, idx)
    requires Quadrants(u, subs, idx, fuel).Some?
    ensures var ns := Quadrants(u, subs, idx, fuel).value;
            forall k :: 0 <= k < |ns| ==> BuiltFrom(u, idx, fuel, ns[k])
    decreases |subs|
  {
    if subs != [] {
      QuadrantsUnfold(u, subs, idx, fuel);
      QuadrantsStructure(u, subs[1..], idx, fuel);
      var rest := Quadrants(u, subs[1..], idx, fuel).value;
      var part := Partition(u, subs[0], idx);
      if part != [] {
        var w := Wrapper(subs[0], Construct(u, subs[0], part, fuel).value);
        assert w.box == subs[0] && w.children == Construct(u, subs[0], part, fuel).value;
        ConsBuilt(u, idx, fuel, w, rest);
      }
    }
  }

  lemma ConsBuilt(u: Universe, idx: seq<int>, fuel: nat, w: Node, rest: seq<Node>)
    requires ValidIndices(u, idx) && BuiltFrom(u, idx, fuel, w)
    requires forall k :: 0 <= k < |rest| ==> BuiltFrom(u, idx, fuel, rest[k])
    ensures forall k :: 0 <= k < |[w] + rest| ==> BuiltFrom(u, idx, fuel, ([w] + rest)[k])
  {
    var ns := [w] + rest;
    assert forall k :: 1 <= k < |ns| ==> ns[k] == rest[k - 1];
  }

  /** The boxes of a list of nodes, in order. */
  function BoxesOf(ns: seq<Node>): (bs: seq<Box>)
    ensures |bs| == |ns|
  {
    if ns == [] then [] else [ns[0].box] + BoxesOf(ns[1..])
  }

  /** Reference definition: the boxes among `subs` that contain at least one body of `idx`, in order. */
  function NonEmptyBoxes(u: Universe, subs: seq<Box>, idx: seq<int>): seq<Box>
    requires ValidIndices(u, idx)
  {
    if subs == [] then []
    else (if Partition(u, subs[0], idx) != [] then [subs[0]] else []) + NonEmptyBoxes(u, subs[1..], idx)
  }

  /** The sub-box loop makes one node per sub-box that holds a body, in sub-box order, and no other. */
  lemma {:induction false} QuadrantsBoxes(u: Universe, subs: seq<Box>, idx: seq<int>, fuel: nat)
    requires ValidIndices(u, idx)
    requires Quadrants(u, subs, idx, fuel).Some?
    ensures BoxesOf(Quadrants(u, subs, idx, fuel).value) == NonEmptyBoxes(u, subs, idx)
    decreases |subs|
  {
    if subs != [] {
      QuadrantsUnfold(u, subs, idx, fuel);
      QuadrantsBoxes(u, subs[1..], idx, fuel);
      var rest := Quadrants(u, subs[1..], idx, fuel).value;
      var part := Partition(u, subs[0], idx);
      if part != [] {
        var w := Wrapper(subs[0], Construct(u, subs[0], part, fuel).value);
        assert ([w] + rest)[1..] == rest;
      }
    }
  }

  /**
   `construct` on two or more bodies: the nodes sit over the non-empty
   sub-boxes in sub-box order, and each node's children are `construct` run
   on the bodies its sub-box holds.
   */
  lemma ConstructSplitsIntoQuadrants(u: Universe, box: Box, idx: seq<int>, fuel: nat)
    requires ValidIndices(u, idx) && |idx| >= 2
    requires Construct(u, box, idx, fuel).Some?
    ensures fuel >= 1
    ensures BoxesOf(Construct(u, box, idx, fuel).value) == NonEmptyBoxes(u, box.Subdivide(), idx)
    ensures forall k :: 0 <= k < |Construct(u, box, idx, fuel).value| ==>
              BuiltFrom(u, idx, fuel - 1, Construct(u, box, idx, fuel).value[k])
  {
    assert fuel >= 1;
    var subs := box.Subdivide();
    var q := Quadrants(u, subs, idx, fuel - 1);
    assert Construct(u, box, idx, fuel) == q;
    assert BoxesOf(q.value) == NonEmptyBoxes(u, subs, idx) by {
      QuadrantsBoxes(u, subs, idx, fuel - 1);
    }
    assert forall k :: 0 <= k < |q.value| ==> BuiltFrom(u, idx, fuel - 1, q.value[k]) by {
      QuadrantsStructure(u, subs, idx, fuel - 1);
    }
  }

  // ---------------------------------------------------------------------------
  // Every body ends up in exactly one leaf
  // ---------------------------------------------------------------------------

  /** How many of the boxes contain the point. */
  function CountContaining(subs: seq<Box>, p: Vec): nat {
    if subs == [] then 0 else (if subs[0].Contains(p) then 1 else 0) + CountContaining(subs[1..], p)
  }

  /**
   `Geometry.SubdivideIsPartition` in counting form: a point of the box lies in
   exactly one sub-box, a point outside it in none.
   */
  lemma SubdivideCounts(b: Box, p: Vec)
    ensures CountContaining(b.Subdivide(), p) == if b.Contains(p) then 1 else 0
  {
    var s := b.Subdivide();
    CountFour(s, p);
    SubdivideIsPartition(b, p);
    if b.Contains(p) {
      var k :| 0 <= k < 4 && OnlyIn(s, k, p);
      assert forall j :: 0 <= j < 4 && j != k ==> !s[j].Contains(p);
    }
  }

  lemma CountFour(s: seq<Box>, p: Vec)
    requires |s| == 4
    ensures CountContaining(s, p) ==
            (if s[0].Contains(p) then 1 else 0) + (if s[1].Contains(p) then 1 else 0) +
            (if s[2].Contains(p) then 1 else 0) + (if s[3].Contains(p) then 1 else 0)
  {
    var s1 := s[1..];
    var s2 := s1[1..];
    var s3 := s2[1..];
    assert s1[0] == s[1] && s2[0] == s[2] && s3[0] == s[3] && s3[1..] == [];
    assert CountContaining(s3, p) == (if s[3].Contains(p) then 1 else 0);
    assert CountContaining(s2, p) == (if s[2].Contains(p) then 1 else 0) + CountContaining(s3, p);
    assert CountContaining(s1, p) == (if s[1].Contains(p) then 1 else 0) + CountContaining(s2, p);
  }

  /** `n` copies of `x`. */
  function Copies(x: LeafRecord, n: nat): multiset<LeafRecord> {
    multiset{}[x := n]
  }

  /** The records of the bodies of `idx` that `box` contains, counted one body at a time. */
  function Part(u: Universe, box: Box, idx: seq<int>): multiset<LeafRecord>
    requires ValidIndices(u, idx)
  {
    if idx == [] then multiset{}
    else Copies(BodyRecord(u, idx[0]), if box.Contains(u.positions[idx[0]]) then 1 else 0) + Part(u, box, idx[1..])
  }

  /** The union of the parts of `idx` that fall in each of the boxes. */
  function SumParts(u: Universe, subs: seq<Box>, idx: seq<int>): multiset<LeafRecord>
    requires ValidIndices(u, idx)
  {
    if subs == [] then multiset{}
    else Part(u, subs[0], idx) + SumParts(u, subs[1..], idx)
  }

  lemma {:induction false} SumPartsCons(u: Universe, subs: seq<Box>, idx: seq<int>)
    requires ValidIndices(u, idx) && idx != []
    ensures SumParts(u, subs, idx) ==
            SumParts(u, subs, idx[1..]) +
            Copies(BodyRecord(u, idx[0]), CountContaining(subs, u.positions[idx[0]]))
    decreases |subs|
  {
    if subs != [] {
      SumPartsCons(u, subs[1..], idx);
      var x := BodyRecord(u, idx[0]);
      var p := u.positions[idx[0]];
      var c0 := if subs[0].Contains(p) then 1 else 0;
      var c1 := CountContaining(subs[1..], p);
      CopiesAdd(x, c0, c1);
      Rearrange(Part(u, subs[0], idx), SumParts(u, subs[1..], idx),
                Part(u, subs[0], idx[1..]), SumParts(u, subs[1..], idx[1..]),
                Copies(x, c0), Copies(x, c1));
    }
  }

  /** Two sums whose parts differ by `c` and `d` differ by `c + d`. */
  lemma Rearrange<T>(a: multiset<T>, b: multiset<T>, a': multiset<T>, b': multiset<T>, c: multiset<T>, d: multiset<T>)
    requires a == c + a' && b == b' + d
    ensures a + b == (a' + b') + (c + d)
  {
  }

  lemma CopiesAdd(x: LeafRecord, m: nat, n: nat)
    ensures Copies(x, m) + Copies(x, n) == Copies(x, m + n)
  {
  }

  /** `Part` counts exactly the records of the bodies `Partition` keeps. */
  lemma {:induction false} PartOfPartition(u: Universe, box: Box, idx: seq<int>)
    requires ValidIndices(u, idx)
    ensures Part(u, box, idx) == multiset(BodyRecords(u, Partition(u, box, idx)))
    decreases |idx|
  {
    if idx != [] {
      PartOfPartition(u, box, idx[1..]);
      var part := Partition(u, box, idx);
      if box.Contains(u.positions[idx[0]]) {
        assert part[1..] == Partition(u, box, idx[1..]);
        assert BodyRecords(u, part) == [BodyRecord(u, idx[0])] + BodyRecords(u, part[1..]);
        assert Copies(BodyRecord(u, idx[0]), 1) == multiset{BodyRecord(u, idx[0])};
      } else {
        assert Copies(BodyRecord(u, idx[0]), 0) == multiset{};
      }
    }
  }

  /** When every body lies in exactly one of the boxes, the parts add up to the whole. */
  lemma {:induction false} PartitionSum(u: Universe, subs: seq<Box>, idx: seq<int>)
    requires ValidIndices(u, idx)
    requires forall k :: 0 <= k < |idx| ==> CountContaining(subs, u.positions[idx[k]]) == 1
    ensures SumParts(u, subs, idx) == multiset(BodyRecords(u, idx))
    decreases |idx|
  {
    if idx == [] {
      EmptyParts(u, subs, idx);
    } else {
      PartitionSum(u, subs, idx[1..]);
      SumPartsCons(u, subs, idx);
      assert CountContaining(subs, u.positions[idx[0]]) == 1;
    }
  }

  lemma {:induction false} EmptyParts(u: Universe, subs: seq<Box>, idx: seq<int>)
    requires ValidIndices(u, idx) && idx == []
    ensures SumParts(u, subs, idx) == multiset{}
    decreases |subs|
  {
    if subs != [] {
      EmptyParts(u, subs[1..], idx);
    }
  }

  /**
   Under the partition assumption, the leaves `construct` returns are exactly
   the given bodies, each once, with its own weight and position; a single
   body is taken whatever its position.
   */
  lemma {:induction false} ConstructLeaves(u: Universe, box: Box, idx: seq<int>, fuel: nat)
    requires ValidIndices(u, idx) && (|idx| <= 1 || InBox(u, box, idx))
    requires Construct(u, box, idx, fuel).Some?
    ensures multiset(LeavesOf(Construct(u, box, idx, fuel).value)) == multiset(BodyRecords(u, idx))
    decreases fuel, 0
  {
    var ns := Construct(u, box, idx, fuel).value;
    if idx == [] {
    } else if |idx| == 1 {
      assert LeavesOf(ns) == Leaves(ns[0]) + LeavesOf(ns[1..]);
      assert BodyRecords(u, idx) == [BodyRecord(u, idx[0])] + BodyRecords(u, idx[1..]);
    } else {
      var subs := box.Subdivide();
      QuadrantsLeaves(u, subs, idx, fuel - 1);
      forall k | 0 <= k < |idx|
        ensures CountContaining(subs, u.positions[idx[k]]) == 1
      {
        SubdivideCounts(box, u.positions[idx[k]]);
      }
      PartitionSum(u, subs, idx);
    }
  }

  lemma {:induction false} QuadrantsLeaves(u: Universe, subs: seq<Box>, idx: seq<int>, fuel: nat)
    requires ValidIndices(u, idx)
    requires Quadrants(u, subs, idx, fuel).Some?
    ensures multiset(LeavesOf(Quadrants(u, subs, idx, fuel).value)) == SumParts(u, subs, idx)
    decreases fuel, 1, |subs|
  {
    if subs != [] {
      var part := Partition(u, subs[0], idx);
      QuadrantsUnfold(u, subs, idx, fuel);
      QuadrantsLeaves(u, subs[1..], idx, fuel);
      PartOfPartition(u, subs[0], idx);
      var rest := Quadrants(u, subs[1..], idx, fuel).value;
      if part != [] {
        var children := Construct(u, subs[0], part, fuel).value;
        ConstructLeaves(u, subs[0], part, fuel);
        var w := Wrapper(subs[0], children);
        var ns := [w] + rest;
        assert ns[1..] == rest;
        assert children != [];
        assert LeavesOf(ns) == Leaves(w) + LeavesOf(rest);
      }
    }
  }

  /** Cut into its four sub-boxes, a box keeps the records of exactly the bodies it contains. */
  lemma {:induction false} SubdividedParts(u: Universe, box: Box, idx: seq<int>)
    requires ValidIndices(u, idx)
    ensures SumParts(u, box.Subdivide(), idx) == Part(u, box, idx)
    decreases |idx|
  {
    if idx == [] {
      EmptyParts(u, box.Subdivide(), idx);
    } else {
      SubdividedParts(u, box, idx[1..]);
      SumPartsCons(u, box.Subdivide(), idx);
      SubdivideCounts(box, u.positions[idx[0]]);
    }
  }

  /** `construct` over two or more bodies, counted per body: the box's part of them. */
  lemma ConstructLeavesArePart(u: Universe, box: Box, idx: seq<int>, fuel: nat)
    requires ValidIndices(u, idx) && |idx| >= 2
    requires Construct(u, box, idx, fuel).Some?
    ensures multiset(LeavesOf(Construct(u, box, idx, fuel).value)) == Part(u, box, idx)
  {
    assert fuel >= 1;
    var subs := box.Subdivide();
    assert Construct(u, box, idx, fuel) == Quadrants(u, subs, idx, fuel - 1);
    QuadrantsLeaves(u, subs, idx, fuel - 1);
    SubdividedParts(u, box, idx);
  }

  /**
   Whatever the box, `construct` over two or more bodies keeps exactly the
   bodies the box contains, each in one leaf, and drops the others.
   */
  lemma ConstructKeepsBodiesInBox(u: Universe, box: Box, idx: seq<int>, fuel: nat)
    requires ValidIndices(u, idx) && |idx| >= 2
    requires Construct(u, box, idx, fuel).Some?
    ensures multiset(LeavesOf(Construct(u, box, idx, fuel).value)) ==
            multiset(BodyRecords(u, Partition(u, box, idx)))
  {
    ConstructLeavesArePart(u, box, idx, fuel);
    PartOfPartition(u, box, idx);
  }

  /** A body the box does not contain contributes nothing to the box's part. */
  lemma {:induction false} PartExcludes(u: Universe, box: Box, idx: seq<int>, i: int)
    requires ValidIndices(u, idx) && 0 <= i < |u.positions| && i < |u.weights|
    requires !box.Contains(u.positions[i])
    ensures BodyRecord(u, i) !in Part(u, box, idx)
    decreases |idx|
  {
    if idx != [] {
      PartExcludes(u, box, idx[1..], i);
    }
  }

  /** The quadrant's bodies are among the parent's, each at most as often. */
  lemma {:induction false} PartitionWithin(u: Universe, box: Box, idx: seq<int>)
    requires ValidIndices(u, idx)
    ensures multiset(Partition(u, box, idx)) <= multiset(idx)
    decreases |idx|
  {
    if idx != [] {
      PartitionWithin(u, box, idx[1..]);
      assert idx == [idx[0]] + idx[1..];
    }
  }

  /**
   Whatever the box, every leaf `construct` returns carries the identifier of
   one of the given bodies, and no body is placed more often than it is given.
   */
  lemma ConstructLeavesAreInputs(u: Universe, box: Box, idx: seq<int>, fuel: nat)
    requires ValidIndices(u, idx)
    requires Construct(u, box, idx, fuel).Some?
    ensures multiset(BodyIds(LeavesOf(Construct(u, box, idx, fuel).value))) <= multiset(idx)
  {
    var ls := LeavesOf(Construct(u, box, idx, fuel).value);
    if |idx| <= 1 {
      ConstructPlacesEachBodyOnce(u, box, idx, fuel);
    } else {
      var part := Partition(u, box, idx);
      ConstructKeepsBodiesInBox(u, box, idx, fuel);
      BodyIdsPermutation(ls, BodyRecords(u, part));
      BodyIdsOfRecords(u, part);
      PartitionWithin(u, box, idx);
    }
  }

  /**
   With half-open containment, a body on the right or top edge of the box lies
   outside it, so `construct` over all bodies leaves it out. The box
   `get_bounding_box` returns, the one the simulation hands the constructor,
   has its upper edges on bodies whenever the coordinates reach the
   sentinels (`Universes.FoldEncloses`).
   */
  lemma EdgeBodyDropped(u: Universe, box: Box, i: int, fuel: nat)
    requires u.Valid() && u.numBodies >= 2 && 0 <= i < u.numBodies
    requires u.positions[i].x == box.xMax || u.positions[i].y == box.yMax
    requires Construct(u, box, AllIndices(u.numBodies), fuel).Some?
    ensures BodyRecord(u, i) !in multiset(LeavesOf(Construct(u, box, AllIndices(u.numBodies), fuel).value))
  {
    var idx := AllIndices(u.numBodies);
    ConstructLeavesArePart(u, box, idx, fuel);
    PartExcludes(u, box, idx, i);
  }

  /**
   The box `get_bounding_box` returns, handed to the constructor as the
   simulation does, is the fold from `init` = `Sentinels`: once a body's x
   coordinate reaches the initial right edge, some body lies on the right edge
   of the box and `construct` over all bodies leaves it out.
   */
  lemma {:induction false} BoundingBoxDropsABody(u: Universe, init: Box, box: Box, j: int, fuel: nat)
    requires u.Valid() && u.numBodies >= 2 && 0 <= j < u.numBodies
    requires box == FoldFrom(init, u.positions) && u.positions[j].x >= init.xMax
    requires Construct(u, box, AllIndices(u.numBodies), fuel).Some?
    ensures exists i :: 0 <= i < u.numBodies &&
              BodyRecord(u, i) !in multiset(LeavesOf(Construct(u, box, AllIndices(u.numBodies), fuel).value))
  {
    var i := RightEdgeOnBody(init, u.positions, j);
    EdgeBodyDropped(u, box, i, fuel);
  }

  function BodyIds(ls: seq<LeafRecord>): (ids: seq<int>)
    ensures |ids| == |ls| && forall k :: 0 <= k < |ls| ==> ids[k] == ls[k].bodyId
  {
    seq(|ls|, k requires 0 <= k < |ls| => ls[k].bodyId)
  }

  lemma {:induction false} BodyIdsOfRecords(u: Universe, idx: seq<int>)
    requires ValidIndices(u, idx)
    ensures BodyIds(BodyRecords(u, idx)) == idx
    decreases |idx|
  {
    if idx != [] {
      BodyIdsOfRecords(u, idx[1..]);
    }
  }

  /** Sequences that are permutations of each other have body identifiers that are too. */
  lemma {:induction false} BodyIdsPermutation(a: seq<LeafRecord>, b: seq<LeafRecord>)
    requires multiset(a) == multiset(b)
    ensures multiset(BodyIds(a)) == multiset(BodyIds(b))
    decreases |a|
  {
    if a != [] {
      var x := a[0];
      assert x in multiset(b);
      var j :| 0 <= j < |b| && b[j] == x;
      var b' := b[..j] + b[j + 1..];
      RemoveOne(a, b, j);
      BodyIdsPermutation(a[1..], b');
      assert BodyIds(a) == [x.bodyId] + BodyIds(a[1..]);
      BodyIdsSplit(b, j);
    }
  }

  lemma BodyIdsSplit(b: seq<LeafRecord>, j: int)
    requires 0 <= j < |b|
    ensures multiset(BodyIds(b)) == multiset(BodyIds(b[..j] + b[j + 1..])) + multiset{b[j].bodyId}
  {
    var ids := BodyIds(b);
    assert ids == ids[..j] + [ids[j]] + ids[j + 1..];
    assert BodyIds(b[..j] + b[j + 1..]) == ids[..j] + ids[j + 1..];
  }

  /** Every index of `idx` is the body identifier of exactly one leaf, and no other identifier occurs. */
  lemma ConstructPlacesEachBodyOnce(u: Universe, box: Box, idx: seq<int>, fuel: nat)
    requires ValidIndices(u, idx) && (|idx| <= 1 || InBox(u, box, idx))
    requires Construct(u, box, idx, fuel).Some?
    ensures multiset(BodyIds(LeavesOf(Construct(u, box, idx, fuel).value))) == multiset(idx)
  {
    ConstructLeaves(u, box, idx, fuel);
    var ls := LeavesOf(Construct(u, box, idx, fuel).value);
    BodyIdsOfRecords(u, idx);
    BodyIdsPermutation(ls, BodyRecords(u, idx));
  }

  // ---------------------------------------------------------------------------
  // The task-parallel strategies: stubs in the source
  // ---------------------------------------------------------------------------

  /** `construct_task`: returns an empty list whatever its input. */
  function ConstructTask(u: Universe, box: Box, idx: seq<int>): (r: seq<Node>)
    ensures LeavesOf(r) == []
  {
    []
  }

  /** `construct_task_with_cutoff`: returns an empty list whatever its input. */
  function ConstructTaskWithCutoff(u: Universe, box: Box, idx: seq<int>): (r: seq<Node>)
    ensures LeavesOf(r) == []
  {
    []
  }

  // ---------------------------------------------------------------------------
  // The constructor
  // ---------------------------------------------------------------------------

  /**
   `Quadtree(universe, bounding_box, construct_mode)`. The root is a fresh node
   over the box; modes 0, 1 and 2 run the matching construction on an EMPTY
   index list and drop what it returns, so the result is the bare root in
   each of them; any other mode throws.
   */
  function NewQuadtree(u: Universe, box: Box, mode: int): (r: Outcome)
    ensures r.Built? <==> mode == 0 || mode == 1 || mode == 2
    ensures r.Built? ==> r.tree.root == NewNode(box) && r.tree.root.children == []
    ensures !r.Built? ==> r == InvalidArgument
  {
    if mode == 0 || mode == 1 || mode == 2 then Built(Quadtree(NewNode(box))) else InvalidArgument
  }

  // ---------------------------------------------------------------------------
  // Traversal and delegations
  // ---------------------------------------------------------------------------

  /** `get_bounding_boxes`: the boxes of the subtree in post-order, the node's own last. */
  function GetBoundingBoxes(n: Node): (r: seq<Box>)
    decreases n
    ensures |r| == Size(n) && r[|r| - 1] == n.box
  {
    GetBoundingBoxesOf(n.children) + [n.box]
  }

  function GetBoundingBoxesOf(cs: seq<Node>): (r: seq<Box>)
    decreases cs
    ensures |r| == SizeOf(cs)
  {
    if cs == [] then [] else GetBoundingBoxes(cs[0]) + GetBoundingBoxesOf(cs[1..])
  }

  /** `m` is `n` itself or a node below it. */
  predicate InSubtree(m: Node, n: Node)
    decreases n
  {
    m == n || InSubtreeOf(m, n.children)
  }

  /** `m` is a node of one of the subtrees `cs`. */
  predicate InSubtreeOf(m: Node, cs: seq<Node>)
    decreases cs
  {
    exists k :: 0 <= k < |cs| && InSubtree(m, cs[k])
  }

  /**
   The list holds the box of every node of the subtree and no other box; with
   its length, one entry per node.
   */
  lemma {:induction false} BoundingBoxesOfSubtree(n: Node)
    decreases n
    ensures forall m :: InSubtree(m, n) ==> m.box in GetBoundingBoxes(n)
    ensures forall b :: b in GetBoundingBoxes(n) ==> exists m :: InSubtree(m, n) && m.box == b
  {
    BoundingBoxesOfSubtrees(n.children);
    var r := GetBoundingBoxes(n);
    assert r == GetBoundingBoxesOf(n.children) + [n.box];
    forall b | b in r
      ensures exists m :: InSubtree(m, n) && m.box == b
    {
      if b == n.box {
        assert InSubtree(n, n);
      } else {
        var m :| InSubtreeOf(m, n.children) && m.box == b;
        assert InSubtree(m, n);
      }
    }
  }

  lemma {:induction false} BoundingBoxesOfSubtrees(cs: seq<Node>)
    decreases cs
    ensures forall m :: InSubtreeOf(m, cs) ==> m.box in GetBoundingBoxesOf(cs)
    ensures forall b :: b in GetBoundingBoxesOf(cs) ==> exists m :: InSubtreeOf(m, cs) && m.box == b
  {
    if cs != [] {
      BoundingBoxesOfSubtree(cs[0]);
      BoundingBoxesOfSubtrees(cs[1..]);
      var r := GetBoundingBoxesOf(cs);
      assert r == GetBoundingBoxes(cs[0]) + GetBoundingBoxesOf(cs[1..]);
      forall m | InSubtreeOf(m, cs)
        ensures m.box in r
      {
        var k :| 0 <= k < |cs| && InSubtree(m, cs[k]);
        if k > 0 {
          assert cs[1..][k - 1] == cs[k];
          assert InSubtreeOf(m, cs[1..]);
        }
      }
      forall b | b in r
        ensures exists m :: InSubtreeOf(m, cs) && m.box == b
      {
        if b in GetBoundingBoxes(cs[0]) {
          var m :| InSubtree(m, cs[0]) && m.box == b;
          assert InSubtreeOf(m, cs);
        } else {
          var m :| InSubtreeOf(m, cs[1..]) && m.box == b;
          var k :| 0 <= k < |cs[1..]| && InSubtree(m, cs[1..][k]);
          assert cs[1..][k] == cs[k + 1];
          assert InSubtreeOf(m, cs);
        }
      }
    }
  }

  lemma {:induction false} BoundingBoxesOfAppend(a: seq<Node>, b: seq<Node>)
    ensures GetBoundingBoxesOf(a + b) == GetBoundingBoxesOf(a) + GetBoundingBoxesOf(b)
    decreases |a|
  {
    if a != [] {
      assert (a + b)[1..] == a[1..] + b;
      assert (a + b)[0] == a[0];
      BoundingBoxesOfAppend(a[1..], b);
    } else {
      assert a + b == b;
    }
  }

  /**
   The list is in post-order with the children in order: the boxes of child
   k occupy the entries right after those of the children before it, which
   number `SizeOf(children[..k])`, and the node's own box comes after all of
   them.
   */
  lemma BoundingBoxesInChildOrder(n: Node, k: int)
    requires 0 <= k < |n.children|
    ensures SizeOf(n.children[..k]) + Size(n.children[k]) < Size(n)
    ensures GetBoundingBoxes(n)[SizeOf(n.children[..k])..SizeOf(n.children[..k]) + Size(n.children[k])] ==
            GetBoundingBoxes(n.children[k])
  {
    var cs := n.children;
    var before := GetBoundingBoxesOf(cs[..k]);
    var own := GetBoundingBoxes(cs[k]);
    var after := GetBoundingBoxesOf(cs[k + 1..]) + [n.box];
    BoundingBoxesOfSplit(cs, k);
    assert GetBoundingBoxes(n) == before + own + after;
    MiddleOf(before, own, after);
  }

  lemma {:induction false} BoundingBoxesOfSplit(cs: seq<Node>, k: int)
    requires 0 <= k < |cs|
    ensures GetBoundingBoxesOf(cs) ==
            GetBoundingBoxesOf(cs[..k]) + GetBoundingBoxes(cs[k]) + GetBoundingBoxesOf(cs[k + 1..])
  {
    var before := cs[..k];
    var rest := cs[k..];
    assert cs == before + rest;
    BoundingBoxesOfAppend(before, rest);
    assert rest[0] == cs[k] && rest[1..] == cs[k + 1..];
    assert GetBoundingBoxesOf(rest) == GetBoundingBoxes(cs[k]) + GetBoundingBoxesOf(cs[k + 1..]);
  }

  lemma MiddleOf<T>(a: seq<T>, b: seq<T>, c: seq<T>)
    ensures |a| + |b| <= |a + b + c| && (a + b + c)[|a|..|a| + |b|] == b
  {
  }

  /** The boxes depend only on the tree's shape, so the aggregation passes do not change them. */
  lemma {:induction false} BoundingBoxesFollowShape(a: Node, b: Node)
    requires SameShape(a, b)
    ensures GetBoundingBoxes(a) == GetBoundingBoxes(b)
    decreases a
  {
    BoundingBoxesOfFollowShape(a.children, b.children);
  }

  lemma {:induction false} BoundingBoxesOfFollowShape(xs: seq<Node>, ys: seq<Node>)
    requires |xs| == |ys| && forall k :: 0 <= k < |xs| ==> SameShape(xs[k], ys[k])
    ensures GetBoundingBoxesOf(xs) == GetBoundingBoxesOf(ys)
    decreases xs
  {
    if xs != [] {
      BoundingBoxesFollowShape(xs[0], ys[0]);
      BoundingBoxesOfFollowShape(xs[1..], ys[1..]);
    }
  }

  /** `Quadtree::calculate_cumulative_masses`: the root's pass. */
  function CalculateCumulativeMasses(t: Quadtree): (r: Quadtree)
    ensures r.root.cumulativeMass == TotalMass(Leaves(t.root))
    ensures Leaves(r.root) == Leaves(t.root) && SameExceptMass(r.root, t.root)
    ensures AllMassReady(r.root) && Aggregated(r.root)
  {
    Quadtree(MassPass(t.root).0)
  }

  /** `Quadtree::calculate_center_of_mass`: the root's pass. */
  function CalculateCenterOfMass(t: Quadtree): (r: Quadtree)
    ensures Leaves(r.root) == Leaves(t.root) && SameShape(r.root, t.root)
    ensures AllCenterReady(r.root)
    ensures PositiveMasses(Leaves(t.root)) ==>
              TotalMass(Leaves(t.root)) > 0.0 &&
              r.root.centerOfMass == TotalMoment(Leaves(t.root)).Divide(TotalMass(Leaves(t.root)))
  {
    Quadtree(CenterPass(t.root).0)
  }

  // ---------------------------------------------------------------------------
  // The constructor as written builds an empty tree
  // ---------------------------------------------------------------------------

  /** The total weight of all bodies of a valid universe. */
  function TotalWeight(u: Universe): real
    requires u.Valid()
  {
    TotalMass(BodyRecords(u, AllIndices(u.numBodies)))
  }

  function AllIndices(n: nat): (idx: seq<int>)
    ensures |idx| == n && forall k :: 0 <= k < n ==> idx[k] == k
  {
    seq(n, k requires 0 <= k < n => k)
  }

  /**
   Whatever the bodies, the serial constructor leaves the root without
   children, so after the cumulative-mass pass the tree's mass is 0 even when
   every body has positive weight.
   */
  lemma AsWrittenTreeHoldsNoBody(u: Universe, box: Box)
    requires u.Valid() && u.numBodies >= 1
    requires forall i :: 0 <= i < |u.weights| ==> u.weights[i] > 0.0
    ensures NewQuadtree(u, box, 0).Built?
    ensures CalculateCumulativeMasses(NewQuadtree(u, box, 0).tree).root.cumulativeMass == 0.0
    ensures TotalWeight(u) > 0.0
  {
    var rs := BodyRecords(u, AllIndices(u.numBodies));
    forall k | 0 <= k < |rs|
      ensures rs[k].mass > 0.0
    {
      RecordOfBody(u, AllIndices(u.numBodies), k);
    }
    PositiveMassesTotal(rs);
  }

  lemma {:induction false} RecordOfBody(u: Universe, idx: seq<int>, k: int)
    requires ValidIndices(u, idx) && 0 <= k < |idx|
    ensures BodyRecords(u, idx)[k] == BodyRecord(u, idx[k])
    decreases |idx|
  {
    if k > 0 {
      RecordOfBody(u, idx[1..], k - 1);
    }
  }

  /**
   The constructor with the construction result attached to the root and
   every body index passed in. The task-parallel modes, stubs in the source,
   are given the serial construction: a task-parallel `construct` that
   finishes every task builds the same children as the serial one and differs
   from it only in which thread builds which subtree.
   */
  function NewQuadtreeCorrected(u: Universe, box: Box, mode: int, fuel: nat): (r: Outcome)
    requires u.Valid()
    ensures !(mode == 0 || mode == 1 || mode == 2) <==> r == InvalidArgument
    ensures r.Built? ==> r.tree.root.box == box && r.tree.root.bodyId == NoBody
  {
    if !(mode == 0 || mode == 1 || mode == 2) then InvalidArgument
    else
      match Construct(u, box, AllIndices(u.numBodies), fuel)
      case None => Diverges
      case Some(children) => Built(Quadtree(NewNode(box).(children := children)))
  }

  /** When the box contains every body, the corrected tree holds each body in exactly one leaf. */
  lemma CorrectedTreeHoldsEveryBody(u: Universe, box: Box, mode: int, fuel: nat)
    requires u.Valid()
    requires forall i :: 0 <= i < |u.positions| ==> box.Contains(u.positions[i])
    requires NewQuadtreeCorrected(u, box, mode, fuel).Built?
    ensures var root := NewQuadtreeCorrected(u, box, mode, fuel).tree.root;
            multiset(LeavesOf(root.children)) == multiset(BodyRecords(u, AllIndices(u.numBodies)))
  {
    ConstructLeaves(u, box, AllIndices(u.numBodies), fuel);
  }

  /** The corrected root's leaves add up to the bodies' total weight and total moment. */
  lemma CorrectedRootTotals(u: Universe, box: Box, mode: int, fuel: nat)
    requires u.Valid()
    requires forall i :: 0 <= i < |u.positions| ==> box.Contains(u.positions[i])
    requires NewQuadtreeCorrected(u, box, mode, fuel).Built?
    ensures TotalMass(Leaves(NewQuadtreeCorrected(u, box, mode, fuel).tree.root)) == TotalWeight(u)
    ensures TotalMoment(Leaves(NewQuadtreeCorrected(u, box, mode, fuel).tree.root)) ==
            TotalMoment(BodyRecords(u, AllIndices(u.numBodies)))
  {
    var root := NewQuadtreeCorrected(u, box, mode, fuel).tree.root;
    var rs := BodyRecords(u, AllIndices(u.numBodies));
    CorrectedTreeHoldsEveryBody(u, box, mode, fuel);
    if root.children == [] {
      assert |rs| == |multiset(rs)| == 0;
    } else {
      TotalsPermutation(Leaves(root), rs);
    }
  }

  /** Bodies of positive weight give the corrected tree leaves of positive mass. */
  lemma CorrectedLeavesPositive(u: Universe, box: Box, mode: int, fuel: nat)
    requires u.Valid()
    requires forall i :: 0 <= i < |u.positions| ==> box.Contains(u.positions[i])
    requires forall i :: 0 <= i < |u.weights| ==> u.weights[i] > 0.0
    requires NewQuadtreeCorrected(u, box, mode, fuel).Built?
    ensures PositiveMasses(LeavesOf(NewQuadtreeCorrected(u, box, mode, fuel).tree.root.children))
  {
    var idx := AllIndices(u.numBodies);
    CorrectedTreeHoldsEveryBody(u, box, mode, fuel);
    RecordsOfPositiveWeights(u, idx);
    PermutationKeepsPositive(LeavesOf(NewQuadtreeCorrected(u, box, mode, fuel).tree.root.children), BodyRecords(u, idx));
  }

  lemma RecordsOfPositiveWeights(u: Universe, idx: seq<int>)
    requires ValidIndices(u, idx) && forall i :: 0 <= i < |u.weights| ==> u.weights[i] > 0.0
    ensures PositiveMasses(BodyRecords(u, idx))
  {
    var rs := BodyRecords(u, idx);
    forall j | 0 <= j < |rs|
      ensures rs[j].mass > 0.0
    {
      RecordOfBody(u, idx, j);
    }
  }

  lemma PermutationKeepsPositive(ls: seq<LeafRecord>, rs: seq<LeafRecord>)
    requires multiset(ls) == multiset(rs) && PositiveMasses(rs)
    ensures PositiveMasses(ls)
  {
    forall k | 0 <= k < |ls|
      ensures ls[k].mass > 0.0
    {
      assert ls[k] in multiset(rs);
    }
  }

  /**
   After the aggregation of an epoch, the corrected root carries the total
   weight of the bodies and, for positive weights, their weighted average
   position.
   */
  lemma CorrectedTreeAggregatesBodies(u: Universe, box: Box, mode: int, fuel: nat)
    requires u.Valid() && u.numBodies >= 1
    requires forall i :: 0 <= i < |u.positions| ==> box.Contains(u.positions[i])
    requires forall i :: 0 <= i < |u.weights| ==> u.weights[i] > 0.0
    requires NewQuadtreeCorrected(u, box, mode, fuel).Built?
    ensures var t := CalculateCumulativeMasses(CalculateCenterOfMass(NewQuadtreeCorrected(u, box, mode, fuel).tree));
            AllMassReady(t.root) && AllCenterReady(t.root) &&
            t.root.cumulativeMass == TotalWeight(u) && TotalWeight(u) > 0.0 &&
            t.root.centerOfMass == TotalMoment(BodyRecords(u, AllIndices(u.numBodies))).Divide(TotalWeight(u))
  {
    var root := NewQuadtreeCorrected(u, box, mode, fuel).tree.root;
    CorrectedRootTotals(u, box, mode, fuel);
    CorrectedLeavesPositive(u, box, mode, fuel);
    CorrectedTreeHoldsEveryBody(u, box, mode, fuel);
    assert |multiset(LeavesOf(root.children))| == u.numBodies;
    assert Leaves(root) == LeavesOf(root.children);
    AggregateInEpochOrder(root);
  }

  /** Three bodies, one in each of three quadrants of a 4 by 4 box about the origin. */
  const ThreeBodies: Universe :=
    Universe(3, [Vec(-1.0, 1.0), Vec(1.0, 1.0), Vec(-1.0, -1.0)],
             [Zero, Zero, Zero], [Zero, Zero, Zero], [1.0, 2.0, 3.0], 0)

  const FourByFour: Box := Box(-2.0, 2.0, -2.0, 2.0)

  /** The four quadrants of `FourByFour`, in the order NW, NE, SW, SE. */
  const FourQuadrants: seq<Box> :=
    [Box(-2.0, 0.0, 0.0, 2.0), Box(0.0, 2.0, 0.0, 2.0), Box(-2.0, 0.0, -2.0, 0.0), Box(0.0, 2.0, -2.0, 0.0)]

  lemma FourByFourQuadrants()
    ensures FourByFour.Subdivide() == FourQuadrants
  {
    assert FourByFour.MidX() == 0.0 && FourByFour.MidY() == 0.0;
  }

  /** Body `i` of `ThreeBodies` is the only one of `[i, .., 2]` that quadrant `q` contains, or none is. */
  lemma ThreeBodiesOnePerQuadrant(q: nat)
    requires q < 4
    ensures forall i :: 0 <= i < 3 ==> (FourQuadrants[q].Contains(ThreeBodies.positions[i]) <==> i == q)
  {
    assert ThreeBodies.positions == [Vec(-1.0, 1.0), Vec(1.0, 1.0), Vec(-1.0, -1.0)];
  }

  lemma PartitionOfThree(q: nat)
    requires q < 4
    ensures Partition(ThreeBodies, FourQuadrants[q], [0, 1, 2]) == (if q < 3 then [q] else [])
  {
    var u, b := ThreeBodies, FourQuadrants[q];
    ThreeBodiesOnePerQuadrant(q);
    var idx := [0, 1, 2];
    assert idx[1..] == [1, 2] && idx[1..][1..] == [2] && idx[1..][1..][1..] == [];
    assert Partition(u, b, [2]) == (if q == 2 then [2] else []);
    assert Partition(u, b, [1, 2]) == (if q == 1 then [1] else if q == 2 then [2] else []);
  }

  /** The wrapper `construct` makes for quadrant `q` of `FourByFour`, around the leaf of body `q`. */
  function WrappedBody(q: nat): Node
    requires q < 3
  {
    Wrapper(FourQuadrants[q], [LeafFor(ThreeBodies, FourQuadrants[q], q)])
  }

  /** One more quadrant in front of the sub-box loop: the result grows by that quadrant's wrapper, if any. */
  lemma QuadrantsOfThreeStep(q: nat, rest: seq<Node>)
    requires q < 4
    requires Quadrants(ThreeBodies, FourQuadrants[q + 1..], [0, 1, 2], 0) == Some(rest)
    ensures Quadrants(ThreeBodies, FourQuadrants[q..], [0, 1, 2], 0) ==
            Some(if q < 3 then [WrappedBody(q)] + rest else rest)
  {
    var u, subs, idx := ThreeBodies, FourQuadrants[q..], [0, 1, 2];
    PartitionOfThree(q);
    assert subs[0] == FourQuadrants[q] && subs[1..] == FourQuadrants[q + 1..];
    QuadrantsCons(u, subs, idx, 0);
    QuadrantsUnfold(u, subs, idx, 0);
  }

  /** The wrappers for quadrants `q..` of `FourByFour` that hold a body of `ThreeBodies`. */
  function ExpectedWrappers(q: nat): seq<Node>
    requires q <= 4
    decreases 4 - q
  {
    if q == 4 then [] else if q < 3 then [WrappedBody(q)] + ExpectedWrappers(q + 1) else ExpectedWrappers(q + 1)
  }

  lemma {:induction false} QuadrantsOfThree(q: nat)
    requires q <= 4
    ensures Quadrants(ThreeBodies, FourQuadrants[q..], [0, 1, 2], 0) == Some(ExpectedWrappers(q))
    decreases 4 - q
  {
    if q == 4 {
      assert FourQuadrants[q..] == [];
    } else {
      QuadrantsOfThree(q + 1);
      QuadrantsOfThreeStep(q, ExpectedWrappers(q + 1));
    }
  }

  /**
   In every valid mode, the corrected root over `ThreeBodies` has three
   children, and each is a wrapper node around a single leaf rather than the
   leaf itself.
   */
  lemma ThreeQuadrantsGiveWrappedLeaves(u: Universe, box: Box, mode: int)
    requires u == ThreeBodies && box == FourByFour && 0 <= mode <= 2
    ensures var r := NewQuadtreeCorrected(u, box, mode, 1);
            r.Built? && |r.tree.root.children| == 3 &&
            forall k :: 0 <= k < 3 ==>
              IsWrapper(r.tree.root.children[k]) &&
              r.tree.root.children[k].children == [LeafFor(u, r.tree.root.children[k].box, k)]
  {
    ConstructOfThree(u, box);
  }

  lemma ConstructOfThree(u: Universe, box: Box)
    requires u == ThreeBodies && box == FourByFour
    ensures Construct(u, box, AllIndices(u.numBodies), 1) == Some([WrappedBody(0), WrappedBody(1), WrappedBody(2)])
  {
    FourByFourQuadrants();
    QuadrantsOfThree(0);
    assert FourQuadrants[0..] == FourQuadrants;
    ExpectedWrappersFromZero();
    assert AllIndices(u.numBodies) == [0, 1, 2];
  }

  lemma ExpectedWrappersFromZero()
    ensures ExpectedWrappers(0) == [WrappedBody(0), WrappedBody(1), WrappedBody(2)]
  {
    assert ExpectedWrappers(3) == [];
  }
}

=== FILE: quadtree_node.dfy ===
/**
 A node of the Barnes-Hut quadtree and its two bottom-up aggregation passes,
 `calculate_node_cumulative_mass` and `calculate_node_center_of_mass`.

 The source mutates an owned pointer tree in place; here a pass takes a node
 and returns the updated node together with the value the C++ member
 function returns. Nothing outside the node's subtree is touched, which the
 immutable datatype makes true by construction.
 */
module QuadtreeNodes {
  import opened Geometry

  datatype Node = Node(
    box: Box,
    bodyId: int,              // index into the universe for a leaf built by `construct`, -1 otherwise
    cumulativeMass: real,
    centerOfMass: Vec,
    cumulativeMassReady: bool,
    centerOfMassReady: bool,
    children: seq<Node>)
  {
    /** The passes treat a node without children as a leaf, whatever its body identifier. */
    predicate IsLeaf() {
      children == []
    }
  }

  /** What a leaf contributes to its ancestors' aggregates. */
  datatype LeafRecord = LeafRecord(bodyId: int, mass: real, position: Vec)

  /** The body identifier of a node that holds no single body. */
  const NoBody: int := -1

  /** The `QuadtreeNode(BoundingBox)` constructor. The centre of mass is a
      default-constructed vector, taken to be the origin. */
  function NewNode(box: Box): (n: Node)
    ensures n.box == box && n.IsLeaf()
    ensures n.bodyId == NoBody && n.cumulativeMass == 0.0
    ensures !n.cumulativeMassReady && !n.centerOfMassReady
    ensures Leaves(n) == [LeafRecord(NoBody, 0.0, Zero)]
  {
    Node(box, NoBody, 0.0, Zero, false, false, [])
  }

  // ---------------------------------------------------------------------------
  // Reference definitions: the leaves of a subtree and what they add up to
  // ---------------------------------------------------------------------------

  /** The leaves of a subtree, left to right. */
  function Leaves(n: Node): seq<LeafRecord>
    decreases n
  {
    if n.IsLeaf() then [LeafRecord(n.bodyId, n.cumulativeMass, n.centerOfMass)]
    else LeavesOf(n.children)
  }

  function LeavesOf(cs: seq<Node>): seq<LeafRecord>
    decreases cs
  {
    if cs == [] then [] else Leaves(cs[0]) + LeavesOf(cs[1..])
  }

  /** The total mass of a sequence of leaves. */
  function TotalMass(ls: seq<LeafRecord>): real {
    if ls == [] then 0.0 else ls[0].mass + TotalMass(ls[1..])
  }

  /** The total first moment, sum of mass times position, of a sequence of leaves. */
  function TotalMoment(ls: seq<LeafRecord>): Vec {
    if ls == [] then Zero else ls[0].position.Scale(ls[0].mass).Plus(TotalMoment(ls[1..]))
  }

  predicate PositiveMasses(ls: seq<LeafRecord>) {
    forall k :: 0 <= k < |ls| ==> ls[k].mass > 0.0
  }

  /** The number of nodes in a subtree. */
  function Size(n: Node): nat
    decreases n
  {
    1 + SizeOf(n.children)
  }

  function SizeOf(cs: seq<Node>): nat
    decreases cs
  {
    if cs == [] then 0 else Size(cs[0]) + SizeOf(cs[1..])
  }

  /** Every node of the subtree has its cumulative-mass flag set. */
  predicate AllMassReady(n: Node)
    decreases n
  {
    n.cumulativeMassReady && forall k :: 0 <= k < |n.children| ==> AllMassReady(n.children[k])
  }

  /** Every node of the subtree has its centre-of-mass flag set. */
  predicate AllCenterReady(n: Node)
    decreases n
  {
    n.centerOfMassReady && forall k :: 0 <= k < |n.children| ==> AllCenterReady(n.children[k])
  }

  /** Every node of the subtree stores the total mass of the leaves below it. */
  predicate Aggregated(n: Node)
    decreases n
  {
    n.cumulativeMass == TotalMass(Leaves(n)) &&
    forall k :: 0 <= k < |n.children| ==> Aggregated(n.children[k])
  }

  /** The two trees have the same boxes, body identifiers and branching. */
  predicate SameShape(a: Node, b: Node)
    decreases a
  {
    a.box == b.box && a.bodyId == b.bodyId && |a.children| == |b.children| &&
    forall k :: 0 <= k < |a.children| ==> SameShape(a.children[k], b.children[k])
  }

  /** The two trees differ at most in cumulative masses and mass flags. */
  predicate SameExceptMass(a: Node, b: Node)
    decreases a
  {
    a.box == b.box && a.bodyId == b.bodyId &&
    a.centerOfMass == b.centerOfMass && a.centerOfMassReady == b.centerOfMassReady &&
    |a.children| == |b.children| &&
    forall k :: 0 <= k < |a.children| ==> SameExceptMass(a.children[k], b.children[k])
  }

  lemma {:induction false} SameExceptMassIsSameShape(a: Node, b: Node)
    requires SameExceptMass(a, b)
    ensures SameShape(a, b)
    decreases a
  {
    forall k | 0 <= k < |a.children| {
      SameExceptMassIsSameShape(a.children[k], b.children[k]);
    }
  }

  lemma {:induction false} SameShapeTransitive(a: Node, b: Node, c: Node)
    requires SameShape(a, b) && SameShape(b, c)
    ensures SameShape(a, c)
    decreases a
  {
    forall k | 0 <= k < |a.children| {
      SameShapeTransitive(a.children[k], b.children[k], c.children[k]);
    }
  }

  lemma {:induction false} TotalMassAppend(a: seq<LeafRecord>, b: seq<LeafRecord>)
    ensures TotalMass(a + b) == TotalMass(a) + TotalMass(b)
    decreases |a|
  {
    if a == [] {
      assert a + b == b;
    } else {
      assert (a + b)[0] == a[0];
      assert (a + b)[1..] == a[1..] + b;
      TotalMassAppend(a[1..], b);
    }
  }

  lemma {:induction false} TotalMomentAppend(a: seq<LeafRecord>, b: seq<LeafRecord>)
    ensures TotalMoment(a + b) == TotalMoment(a).Plus(TotalMoment(b))
    decreases |a|
  {
    if a == [] {
      assert a + b == b;
    } else {
      assert (a + b)[0] == a[0];
      assert (a + b)[1..] == a[1..] + b;
      TotalMomentAppend(a[1..], b);
      var head := a[0].position.Scale(a[0].mass);
      assert TotalMoment(a + b) == head.Plus(TotalMoment(a[1..] + b));
    }
  }

  lemma {:induction false} PositiveMassesTotal(ls: seq<LeafRecord>)
    ensures PositiveMasses(ls) && ls != [] ==> TotalMass(ls) > 0.0
    decreases |ls|
  {
    if |ls| > 1 {
      PositiveMassesTotal(ls[1..]);
    }
  }

  /** Every subtree has at least one leaf, since only childless nodes are leaves. */
  lemma {:induction false} LeavesNonEmpty(n: Node)
    ensures Leaves(n) != []
    decreases n
  {
    if !n.IsLeaf() {
      LeavesNonEmpty(n.children[0]);
    }
  }

  // ---------------------------------------------------------------------------
  // calculate_node_cumulative_mass
  // ---------------------------------------------------------------------------

  /**
   The cumulative-mass pass. A leaf keeps its stored mass and only gains its
   flag; an internal node is reset to the sum of its children's passes.
   Returns the updated node and the mass the C++ function returns.
   */
  function MassPass(n: Node): (r: (Node, real))
    decreases n
    ensures r.1 == TotalMass(Leaves(n)) == r.0.cumulativeMass
    ensures Leaves(r.0) == Leaves(n)
    ensures SameExceptMass(r.0, n) && Size(r.0) == Size(n)
    ensures AllMassReady(r.0) && Aggregated(r.0)
    ensures n.IsLeaf() ==> r.0 == n.(cumulativeMassReady := true)
  {
    if n.IsLeaf() then
      (n.(cumulativeMassReady := true), n.cumulativeMass)
    else
      var (cs, total) := MassPassOf(n.children);
      (n.(cumulativeMass := total, cumulativeMassReady := true, children := cs), total)
  }

  /** The loop over the children in `calculate_node_cumulative_mass`. */
  function MassPassOf(cs: seq<Node>): (r: (seq<Node>, real))
    decreases cs
    ensures |r.0| == |cs|
    ensures r.1 == TotalMass(LeavesOf(cs))
    ensures LeavesOf(r.0) == LeavesOf(cs) && SizeOf(r.0) == SizeOf(cs)
    ensures forall k :: 0 <= k < |cs| ==>
              SameExceptMass(r.0[k], cs[k]) && AllMassReady(r.0[k]) && Aggregated(r.0[k])
  {
    if cs == [] then ([], 0.0)
    else
      var (head, m) := MassPass(cs[0]);
      var (tail, rest) := MassPassOf(cs[1..]);
      TotalMassAppend(Leaves(cs[0]), LeavesOf(cs[1..]));
      assert ([head] + tail)[1..] == tail;
      ([head] + tail, m + rest)
  }

  /** On a tree whose masses are already aggregated and flagged, the mass pass changes nothing. */
  lemma {:induction false} MassPassFixpoint(n: Node)
    requires Aggregated(n) && AllMassReady(n)
    ensures MassPass(n) == (n, n.cumulativeMass)
    decreases n
  {
    if !n.IsLeaf() {
      MassPassOfFixpoint(n.children);
    }
  }

  lemma {:induction false} MassPassOfFixpoint(cs: seq<Node>)
    requires forall k :: 0 <= k < |cs| ==> Aggregated(cs[k]) && AllMassReady(cs[k])
    ensures MassPassOf(cs) == (cs, TotalMass(LeavesOf(cs)))
    decreases cs
  {
    if cs != [] {
      MassPassFixpoint(cs[0]);
      MassPassOfFixpoint(cs[1..]);
      assert [cs[0]] + cs[1..] == cs;
    }
  }

  /** Running the mass pass a second time gives the same tree and the same value. */
  lemma MassPassIdempotent(n: Node)
    ensures MassPass(MassPass(n).0) == MassPass(n)
  {
    MassPassFixpoint(MassPass(n).0);
  }

  // ---------------------------------------------------------------------------
  // calculate_node_center_of_mass
  // ---------------------------------------------------------------------------

  /**
   The centre-of-mass pass. A leaf keeps its stored position and only gains
   its flag. For an internal node each child first runs the mass pass and then
   this pass; the node's cumulative mass becomes the children's total, and its
   centre becomes the mass-weighted average of the children's centres only
   when that total is positive (otherwise it keeps its previous value). The
   node's own cumulative-mass flag is not touched.
   */
  function CenterPass(n: Node): (r: (Node, Vec))
    decreases Size(n), 1
    ensures Leaves(r.0) == Leaves(n)
    ensures SameShape(r.0, n) && Size(r.0) == Size(n)
    ensures AllCenterReady(r.0)
    ensures AllMassReady(r.0) == n.cumulativeMassReady
    ensures r.1 == r.0.centerOfMass
    ensures n.IsLeaf() ==> r.0 == n.(centerOfMassReady := true)
    ensures !n.IsLeaf() ==> r.0.cumulativeMass == TotalMass(Leaves(n)) && Aggregated(r.0)
    ensures forall k :: 0 <= k < |r.0.children| ==> Aggregated(r.0.children[k])
    ensures !n.IsLeaf() && TotalMass(Leaves(n)) <= 0.0 ==> r.1 == n.centerOfMass
    ensures PositiveMasses(Leaves(n)) ==>
              TotalMass(Leaves(n)) > 0.0 &&
              r.1 == TotalMoment(Leaves(n)).Divide(TotalMass(Leaves(n)))
  {
    LeavesNonEmpty(n);
    PositiveMassesTotal(Leaves(n));
    if n.IsLeaf() then
      (n.(centerOfMassReady := true), n.centerOfMass)
    else
      var (cs, moment, total) := CenterPassOf(n.children);
      var center := if total > 0.0 then moment.Divide(total) else n.centerOfMass;
      (n.(cumulativeMass := total, centerOfMass := center, centerOfMassReady := true, children := cs),
       center)
  }

  /** A child after both passes: same shape as before, every flag set, every mass aggregated. */
  predicate Finished(n: Node, before: Node) {
    SameShape(n, before) && AllCenterReady(n) && AllMassReady(n) && Aggregated(n)
  }

  /**
   The loop over the children in `calculate_node_center_of_mass`: returns the
   updated children, the sum of centre times mass and the sum of masses.
   */
  function CenterPassOf(cs: seq<Node>): (r: (seq<Node>, Vec, real))
    decreases SizeOf(cs), 2
    ensures |r.0| == |cs|
    ensures LeavesOf(r.0) == LeavesOf(cs) && SizeOf(r.0) == SizeOf(cs)
    ensures r.2 == TotalMass(LeavesOf(cs))
    ensures PositiveMasses(LeavesOf(cs)) ==> r.1 == TotalMoment(LeavesOf(cs))
    ensures forall k :: 0 <= k < |cs| ==> Finished(r.0[k], cs[k])
  {
    if cs == [] then ([], Zero, 0.0)
    else
      var (measured, m) := MassPass(cs[0]);
      var (centered, center) := CenterPass(measured);
      assert Finished(centered, cs[0]) by {
        SameExceptMassIsSameShape(measured, cs[0]);
        SameShapeTransitive(centered, measured, cs[0]);
      }
      var (tail, moment, rest) := CenterPassOf(cs[1..]);
      assert LeavesOf(cs) == Leaves(cs[0]) + LeavesOf(cs[1..]);
      assert m + rest == TotalMass(LeavesOf(cs)) by {
        TotalMassAppend(Leaves(cs[0]), LeavesOf(cs[1..]));
      }
      assert PositiveMasses(LeavesOf(cs)) ==> center.Scale(m).Plus(moment) == TotalMoment(LeavesOf(cs)) by {
        TotalMassAppend(Leaves(cs[0]), LeavesOf(cs[1..]));
        TotalMomentAppend(Leaves(cs[0]), LeavesOf(cs[1..]));
        PositiveSplit(Leaves(cs[0]), LeavesOf(cs[1..]));
        DivideThenScale(TotalMoment(Leaves(cs[0])), m);
      }
      var r0 := [centered] + tail;
      ConsOf(centered, tail);
      ConsFinished(centered, tail, cs);
      (r0, center.Scale(m).Plus(moment), m + rest)
  }

  lemma ConsOf(n: Node, tail: seq<Node>)
    ensures LeavesOf([n] + tail) == Leaves(n) + LeavesOf(tail) && SizeOf([n] + tail) == Size(n) + SizeOf(tail)
  {
    assert ([n] + tail)[1..] == tail;
  }

  lemma ConsFinished(n: Node, tail: seq<Node>, cs: seq<Node>)
    requires cs != [] && |tail| == |cs| - 1 && Finished(n, cs[0])
    requires forall k :: 0 <= k < |tail| ==> Finished(tail[k], cs[1..][k])
    ensures forall k :: 0 <= k < |cs| ==> Finished(([n] + tail)[k], cs[k])
  {
    var r := [n] + tail;
    assert forall k :: 1 <= k < |cs| ==> r[k] == tail[k - 1] && cs[k] == cs[1..][k - 1];
  }

  lemma DivideThenScale(v: Vec, k: real)
    ensures k != 0.0 ==> v.Divide(k).Scale(k) == v
  {
  }

  lemma PositiveSplit(a: seq<LeafRecord>, b: seq<LeafRecord>)
    ensures PositiveMasses(a + b) ==> PositiveMasses(a) && PositiveMasses(b)
  {
    assert forall k :: 0 <= k < |a| ==> (a + b)[k] == a[k];
    assert forall k :: 0 <= k < |b| ==> (a + b)[|a| + k] == b[k];
  }

  lemma {:induction false} SameExceptMassKeepsCenters(a: Node, b: Node)
    requires SameExceptMass(a, b)
    ensures AllCenterReady(a) == AllCenterReady(b)
    decreases a
  {
    forall k | 0 <= k < |a.children| {
      SameExceptMassKeepsCenters(a.children[k], b.children[k]);
    }
  }

  /**
   The order a Barnes-Hut epoch uses: the centre-of-mass pass first, then the
   cumulative-mass pass. Afterwards every node of the tree is flagged ready
   for both aggregates, the root holds the total leaf mass, and, for positive
   leaf masses, the mass-weighted average of the leaf positions.
   */
  lemma AggregateInEpochOrder(n: Node)
    ensures var t := MassPass(CenterPass(n).0).0;
            AllMassReady(t) && AllCenterReady(t) && Aggregated(t) &&
            t.cumulativeMass == TotalMass(Leaves(n)) &&
            (PositiveMasses(Leaves(n)) ==>
               TotalMass(Leaves(n)) > 0.0 &&
               t.centerOfMass == TotalMoment(Leaves(n)).Divide(TotalMass(Leaves(n))))
  {
    var c := CenterPass(n).0;
    SameExceptMassKeepsCenters(MassPass(c).0, c);
  }

  lemma RemoveOne(a: seq<LeafRecord>, b: seq<LeafRecord>, j: int)
    requires multiset(a) == multiset(b) && a != [] && 0 <= j < |b| && b[j] == a[0]
    ensures multiset(a[1..]) == multiset(b[..j] + b[j + 1..])
  {
    assert a == [a[0]] + a[1..];
    assert b == b[..j] + [b[j]] + b[j + 1..];
    assert multiset(a) == multiset{a[0]} + multiset(a[1..]);
    assert multiset(b) == multiset(b[..j]) + multiset{b[j]} + multiset(b[j + 1..]);
    assert multiset(b[..j] + b[j + 1..]) == multiset(b[..j]) + multiset(b[j + 1..]);
    forall y
      ensures multiset(a[1..])[y] == multiset(b[..j] + b[j + 1..])[y]
    {
      assert multiset(a)[y] == multiset(b)[y];
    }
  }

  /** The leaf totals do not depend on the order of the leaves. */
  lemma {:induction false} TotalsPermutation(a: seq<LeafRecord>, b: seq<LeafRecord>)
    requires multiset(a) == multiset(b)
    ensures TotalMass(a) == TotalMass(b) && TotalMoment(a) == TotalMoment(b)
    decreases |a|
  {
    if a == [] {
      assert b == [];
    } else {
      var x := a[0];
      assert x in multiset(b);
      var j :| 0 <= j < |b| && b[j] == x;
      var b' := b[..j] + b[j + 1..];
      RemoveOne(a, b, j);
      TotalsPermutation(a[1..], b');
      TotalMassAppend(b[..j], [x] + b[j + 1..]);
      TotalMomentAppend(b[..j], [x] + b[j + 1..]);
      TotalMassAppend(b[..j], b[j + 1..]);
      TotalMomentAppend(b[..j], b[j + 1..]);
      assert b == b[..j] + ([x] + b[j + 1..]);
      assert ([x] + b[j + 1..])[1..] == b[j + 1..];
    }
  }
}

=== FILE: universe.dfy ===
/**
 The body set of the simulation and its enclosing bounding box.

 `Universe::get_bounding_box` is a min/max fold over the positions whose
 minimum accumulators start at `numeric_limits<double>::max()` and whose
 maximum accumulators start at `numeric_limits<double>::min()`. The latter is
 the smallest positive normal double, 2^-1022, not the most negative one, and
 the model keeps it: the upper edges of the box are never below 2^-1022.
 `parallel_cpu_get_bounding_box` is modelled as a fold over chunks, each
 folded from the same sentinels and then combined with the comparisons of the
 critical section, with no threads.
 */
module Universes {
  import opened Geometry

  /** Parallel per-body arrays; index i is the same body in every one of them. */
  datatype Universe = Universe(
    numBodies: int,
    positions: seq<Vec>,
    velocities: seq<Vec>,
    forces: seq<Vec>,
    weights: seq<real>,
    currentEpoch: int)
  {
    /** `num_bodies` agrees with the length of every per-body array. */
    predicate Valid() {
      numBodies == |positions| == |velocities| == |forces| == |weights|
    }
  }

  /** `numeric_limits<double>::max()`, exactly: (2^53 - 1) * 2^971. */
  const DoubleMax: real := 179769313486231570814527423731704356798070567525844996598917476803157260780028538760589558632766878171540458953514382464234321326889464182768467546703537516986049910576551282076245490090389328944075868508455133942304583236903222948165808559332123348274797826204144723168738177180919299881250404026184124858368.0

  /** `numeric_limits<double>::min()`, exactly: 2^-1022, the smallest positive normal double. */
  const DoubleMinPositive: real := 1.0 / 44942328371557897693232629769725618340449424473557664318357520289433168951375240783177119330601884005280028469967848339414697442203604155623211857659868531094441973356216371319075554900311523529863270738021251442209537670585615720368478277635206809290837627671146574559986811484619929076208839082406056034304.0

  /** The box before any position has been seen. */
  const Sentinels: Box := Box(DoubleMax, DoubleMinPositive, DoubleMax, DoubleMinPositive)

  datatype Axis = X | Y

  function Coord(p: Vec, a: Axis): real {
    match a
    case X => p.x
    case Y => p.y
  }

  function Coords(ps: seq<Vec>, a: Axis): (cs: seq<real>)
    ensures |cs| == |ps| && forall k :: 0 <= k < |ps| ==> cs[k] == Coord(ps[k], a)
  {
    seq(|ps|, k requires 0 <= k < |ps| => Coord(ps[k], a))
  }

  /** `m` is the largest of `floor` and the values `cs`. */
  ghost predicate IsCeiling(m: real, floor: real, cs: seq<real>) {
    floor <= m && (forall k :: 0 <= k < |cs| ==> cs[k] <= m) &&
    (m == floor || exists k :: 0 <= k < |cs| && cs[k] == m)
  }

  /** `m` is the smallest of `ceiling` and the values `cs`. */
  ghost predicate IsFloor(m: real, ceiling: real, cs: seq<real>) {
    m <= ceiling && (forall k :: 0 <= k < |cs| ==> m <= cs[k]) &&
    (m == ceiling || exists k :: 0 <= k < |cs| && cs[k] == m)
  }

  /** `b` is the box the fold should produce from the sentinels `init` over `ps`. */
  ghost predicate Encloses(b: Box, init: Box, ps: seq<Vec>) {
    IsFloor(b.xMin, init.xMin, Coords(ps, X)) && IsCeiling(b.xMax, init.xMax, Coords(ps, X)) &&
    IsFloor(b.yMin, init.yMin, Coords(ps, Y)) && IsCeiling(b.yMax, init.yMax, Coords(ps, Y))
  }

  lemma CeilingUnique(m1: real, m2: real, floor: real, cs: seq<real>)
    requires IsCeiling(m1, floor, cs) && IsCeiling(m2, floor, cs)
    ensures m1 == m2
  {
  }

  lemma FloorUnique(m1: real, m2: real, ceiling: real, cs: seq<real>)
    requires IsFloor(m1, ceiling, cs) && IsFloor(m2, ceiling, cs)
    ensures m1 == m2
  {
  }

  /** One iteration of the loop in `get_bounding_box`: four strict comparisons. */
  function Accumulate(b: Box, p: Vec): Box {
    var xMax := if p.x > b.xMax then p.x else b.xMax;
    var xMin := if p.x < b.xMin then p.x else b.xMin;
    var yMax := if p.y > b.yMax then p.y else b.yMax;
    var yMin := if p.y < b.yMin then p.y else b.yMin;
    Box(xMin, xMax, yMin, yMax)
  }

  /** The loop of `get_bounding_box` run over `ps` from the accumulator `init`. */
  function FoldFrom(init: Box, ps: seq<Vec>): Box
    decreases |ps|
  {
    if ps == [] then init else Accumulate(FoldFrom(init, ps[..|ps| - 1]), ps[|ps| - 1])
  }

  /** Folding one more value into a running maximum keeps it the ceiling. */
  lemma CeilingStep(m: real, floor: real, cs: seq<real>, c: real)
    requires IsCeiling(m, floor, cs)
    ensures IsCeiling(if c > m then c else m, floor, cs + [c])
  {
    var r := if c > m then c else m;
    var all := cs + [c];
    if c > m {
      assert all[|cs|] == r;
    } else if m != floor {
      var k :| 0 <= k < |cs| && cs[k] == m;
      assert all[k] == r;
    }
  }

  /** Folding one more value into a running minimum keeps it the floor. */
  lemma FloorStep(m: real, ceiling: real, cs: seq<real>, c: real)
    requires IsFloor(m, ceiling, cs)
    ensures IsFloor(if c < m then c else m, ceiling, cs + [c])
  {
    var r := if c < m then c else m;
    var all := cs + [c];
    if c < m {
      assert all[|cs|] == r;
    } else if m != ceiling {
      var k :| 0 <= k < |cs| && cs[k] == m;
      assert all[k] == r;
    }
  }

  lemma {:induction false} FoldEncloses(init: Box, ps: seq<Vec>)
    ensures Encloses(FoldFrom(init, ps), init, ps)
    decreases |ps|
  {
    if ps != [] {
      var front := ps[..|ps| - 1];
      FoldEncloses(init, front);
      var b := FoldFrom(init, front);
      var p := ps[|ps| - 1];
      assert Coords(ps, X) == Coords(front, X) + [p.x];
      assert Coords(ps, Y) == Coords(front, Y) + [p.y];
      CeilingStep(b.xMax, init.xMax, Coords(front, X), p.x);
      FloorStep(b.xMin, init.xMin, Coords(front, X), p.x);
      CeilingStep(b.yMax, init.yMax, Coords(front, Y), p.y);
      FloorStep(b.yMin, init.yMin, Coords(front, Y), p.y);
    }
  }

  /** Two boxes that both enclose `ps` from the same sentinels are the same box. */
  lemma EnclosesUnique(b1: Box, b2: Box, init: Box, ps: seq<Vec>)
    requires Encloses(b1, init, ps) && Encloses(b2, init, ps)
    ensures b1 == b2
  {
    FloorUnique(b1.xMin, b2.xMin, init.xMin, Coords(ps, X));
    CeilingUnique(b1.xMax, b2.xMax, init.xMax, Coords(ps, X));
    FloorUnique(b1.yMin, b2.yMin, init.yMin, Coords(ps, Y));
    CeilingUnique(b1.yMax, b2.yMax, init.yMax, Coords(ps, Y));
  }

  /**
   `Universe::get_bounding_box`. Every position lies in the closed box; the
   lower edges are the smallest coordinates (or `DoubleMax` when there is no
   smaller one) and the upper edges the largest coordinates, but never below
   `DoubleMinPositive`. With no positions the box is the four sentinels.
   */
  method GetBoundingBox(positions: seq<Vec>) returns (b: Box)
    ensures forall k :: 0 <= k < |positions| ==>
              b.xMin <= positions[k].x <= b.xMax && b.yMin <= positions[k].y <= b.yMax
    ensures b == FoldFrom(Sentinels, positions)
    ensures positions == [] ==> b == Sentinels
  {
    b := Sentinels;
    var i := 0;
    while i < |positions|
      invariant 0 <= i <= |positions|
      invariant b == FoldFrom(Sentinels, positions[..i])
    {
      assert positions[..i + 1][..i] == positions[..i];
      b := Accumulate(b, positions[i]);
      i := i + 1;
    }
    assert positions[..i] == positions;
    FoldEncloses(Sentinels, positions);
    forall k | 0 <= k < |positions|
      ensures b.xMin <= positions[k].x <= b.xMax && b.yMin <= positions[k].y <= b.yMax
    {
      assert Coords(positions, X)[k] == positions[k].x;
      assert Coords(positions, Y)[k] == positions[k].y;
    }
  }

  /**
   As soon as one x coordinate reaches the initial right edge, the right edge
   of the folded box is some body's x coordinate; for `get_bounding_box` the
   initial edge is `numeric_limits<double>::min()`.
   */
  lemma RightEdgeOnBody(init: Box, positions: seq<Vec>, j: int) returns (k: int)
    requires 0 <= j < |positions| && positions[j].x >= init.xMax
    ensures 0 <= k < |positions| && positions[k].x == FoldFrom(init, positions).xMax
  {
    FoldEncloses(init, positions);
    var xs := Coords(positions, X);
    assert xs[j] == positions[j].x;
    var m := FoldFrom(init, positions).xMax;
    if m == init.xMax {
      k := j;
    } else {
      k :| 0 <= k < |xs| && xs[k] == m;
    }
  }

  /**
   With every x coordinate negative, the right edge of the box is the
   initial `numeric_limits<double>::min()` and no body's coordinate: the box
   is not the smallest one around the bodies.
   */
  lemma AllNegativeRightEdgeIsSentinel(positions: seq<Vec>)
    requires forall k :: 0 <= k < |positions| ==> positions[k].x < 0.0
    ensures FoldFrom(Sentinels, positions).xMax == DoubleMinPositive
    ensures forall k :: 0 <= k < |positions| ==> positions[k].x != FoldFrom(Sentinels, positions).xMax
  {
    FoldEncloses(Sentinels, positions);
    var cs := Coords(positions, X);
    assert forall k :: 0 <= k < |cs| ==> cs[k] < 0.0;
  }

  /**
   Whenever the coordinates are finite doubles, the lower edges of a non-empty
   set of positions are attained by some body.
   */
  lemma LowerEdgesAttained(positions: seq<Vec>)
    requires positions != []
    requires forall k :: 0 <= k < |positions| ==> positions[k].x <= DoubleMax && positions[k].y <= DoubleMax
    ensures exists k :: 0 <= k < |positions| && positions[k].x == FoldFrom(Sentinels, positions).xMin
    ensures exists k :: 0 <= k < |positions| && positions[k].y == FoldFrom(Sentinels, positions).yMin
  {
    FoldEncloses(Sentinels, positions);
    var b := FoldFrom(Sentinels, positions);
    var xs := Coords(positions, X);
    var ys := Coords(positions, Y);
    if b.xMin == DoubleMax {
      assert xs[0] == positions[0].x;
    } else {
      var k :| 0 <= k < |xs| && xs[k] == b.xMin;
      assert positions[k].x == b.xMin;
    }
    if b.yMin == DoubleMax {
      assert ys[0] == positions[0].y;
    } else {
      var k :| 0 <= k < |ys| && ys[k] == b.yMin;
      assert positions[k].y == b.yMin;
    }
  }

  /**
   The reduction the comment at the end of `parallel_cpu_get_bounding_box`
   describes, the smallest box around all bodies: the maximum accumulators
   start at the most negative double, `numeric_limits<double>::lowest()`.
   */
  const TightSentinels: Box := Box(DoubleMax, -DoubleMax, DoubleMax, -DoubleMax)

  function TightBoundingBox(positions: seq<Vec>): (b: Box)
    ensures forall k :: 0 <= k < |positions| ==>
              b.xMin <= positions[k].x <= b.xMax && b.yMin <= positions[k].y <= b.yMax
  {
    FoldEncloses(TightSentinels, positions);
    var b := FoldFrom(TightSentinels, positions);
    assert forall k :: 0 <= k < |positions| ==>
             Coords(positions, X)[k] == positions[k].x && Coords(positions, Y)[k] == positions[k].y;
    b
  }

  /** For finite coordinates, every edge of the corrected box is some body's coordinate. */
  lemma TightBoundingBoxIsSmallest(positions: seq<Vec>)
    requires positions != []
    requires forall k :: 0 <= k < |positions| ==>
               -DoubleMax <= positions[k].x <= DoubleMax && -DoubleMax <= positions[k].y <= DoubleMax
    ensures exists k :: 0 <= k < |positions| && positions[k].x == TightBoundingBox(positions).xMin
    ensures exists k :: 0 <= k < |positions| && positions[k].x == TightBoundingBox(positions).xMax
    ensures exists k :: 0 <= k < |positions| && positions[k].y == TightBoundingBox(positions).yMin
    ensures exists k :: 0 <= k < |positions| && positions[k].y == TightBoundingBox(positions).yMax
  {
    FoldEncloses(TightSentinels, positions);
    var b := TightBoundingBox(positions);
    var xs := Coords(positions, X);
    var ys := Coords(positions, Y);
    assert xs[0] == positions[0].x && ys[0] == positions[0].y;
    if b.xMin != DoubleMax {
      var k :| 0 <= k < |xs| && xs[k] == b.xMin;
      assert positions[k].x == b.xMin;
    }
    if b.xMax != -DoubleMax {
      var k :| 0 <= k < |xs| && xs[k] == b.xMax;
      assert positions[k].x == b.xMax;
    }
    if b.yMin != DoubleMax {
      var k :| 0 <= k < |ys| && ys[k] == b.yMin;
      assert positions[k].y == b.yMin;
    }
    if b.yMax != -DoubleMax {
      var k :| 0 <= k < |ys| && ys[k] == b.yMax;
      assert positions[k].y == b.yMax;
    }
  }

  // ---------------------------------------------------------------------------
  // parallel_cpu_get_bounding_box as a chunked fold
  // ---------------------------------------------------------------------------

  /** The critical section: merge one chunk's local box into the global one. */
  function Combine(global: Box, local: Box): Box {
    var xMin := if local.xMin < global.xMin then local.xMin else global.xMin;
    var xMax := if local.xMax > global.xMax then local.xMax else global.xMax;
    var yMin := if local.yMin < global.yMin then local.yMin else global.yMin;
    var yMax := if local.yMax > global.yMax then local.yMax else global.yMax;
    Box(xMin, xMax, yMin, yMax)
  }

  function Flatten(chunks: seq<seq<Vec>>): seq<Vec>
    decreases |chunks|
  {
    if chunks == [] then [] else Flatten(chunks[..|chunks| - 1]) + chunks[|chunks| - 1]
  }

  /**
   Each chunk is folded from the sentinels into a local box, and the local
   boxes are combined into the global one in the order the chunks are listed
   (the order the threads enter the critical section).
   */
  function ParallelBoundingBox(chunks: seq<seq<Vec>>): Box
    decreases |chunks|
  {
    if chunks == [] then Sentinels
    else Combine(ParallelBoundingBox(chunks[..|chunks| - 1]), FoldFrom(Sentinels, chunks[|chunks| - 1]))
  }

  /** The larger of the ceilings of two runs is the ceiling of both. */
  lemma CeilingCombine(m1: real, m2: real, floor: real, cs1: seq<real>, cs2: seq<real>)
    requires IsCeiling(m1, floor, cs1) && IsCeiling(m2, floor, cs2)
    ensures IsCeiling(if m2 > m1 then m2 else m1, floor, cs1 + cs2)
  {
    var r := if m2 > m1 then m2 else m1;
    var all := cs1 + cs2;
    if r != floor {
      if r == m1 {
        var k :| 0 <= k < |cs1| && cs1[k] == m1;
        assert all[k] == r;
      } else {
        var k :| 0 <= k < |cs2| && cs2[k] == m2;
        assert all[|cs1| + k] == r;
      }
    }
  }

  /** The smaller of the floors of two runs is the floor of both. */
  lemma FloorCombine(m1: real, m2: real, ceiling: real, cs1: seq<real>, cs2: seq<real>)
    requires IsFloor(m1, ceiling, cs1) && IsFloor(m2, ceiling, cs2)
    ensures IsFloor(if m2 < m1 then m2 else m1, ceiling, cs1 + cs2)
  {
    var r := if m2 < m1 then m2 else m1;
    var all := cs1 + cs2;
    if r != ceiling {
      if r == m1 {
        var k :| 0 <= k < |cs1| && cs1[k] == m1;
        assert all[k] == r;
      } else {
        var k :| 0 <= k < |cs2| && cs2[k] == m2;
        assert all[|cs1| + k] == r;
      }
    }
  }

  /** Combining the boxes of two runs gives the box of the concatenated run. */
  lemma CombineEncloses(g: Box, l: Box, init: Box, a: seq<Vec>, b: seq<Vec>)
    requires Encloses(g, init, a) && Encloses(l, init, b)
    ensures Encloses(Combine(g, l), init, a + b)
  {
    assert Coords(a + b, X) == Coords(a, X) + Coords(b, X);
    assert Coords(a + b, Y) == Coords(a, Y) + Coords(b, Y);
    FloorCombine(g.xMin, l.xMin, init.xMin, Coords(a, X), Coords(b, X));
    CeilingCombine(g.xMax, l.xMax, init.xMax, Coords(a, X), Coords(b, X));
    FloorCombine(g.yMin, l.yMin, init.yMin, Coords(a, Y), Coords(b, Y));
    CeilingCombine(g.yMax, l.yMax, init.yMax, Coords(a, Y), Coords(b, Y));
  }

  /** For any split of the positions into chunks, the parallel reduction gives the serial box. */
  lemma {:induction false} ParallelMatchesSerial(chunks: seq<seq<Vec>>)
    ensures ParallelBoundingBox(chunks) == FoldFrom(Sentinels, Flatten(chunks))
    decreases |chunks|
  {
    ParallelEncloses(chunks);
    FoldEncloses(Sentinels, Flatten(chunks));
    EnclosesUnique(ParallelBoundingBox(chunks), FoldFrom(Sentinels, Flatten(chunks)), Sentinels, Flatten(chunks));
  }

  lemma {:induction false} ParallelEncloses(chunks: seq<seq<Vec>>)
    ensures Encloses(ParallelBoundingBox(chunks), Sentinels, Flatten(chunks))
    decreases |chunks|
  {
    if chunks != [] {
      var front := chunks[..|chunks| - 1];
      var last := chunks[|chunks| - 1];
      ParallelEncloses(front);
      FoldEncloses(Sentinels, last);
      CombineEncloses(ParallelBoundingBox(front), FoldFrom(Sentinels, last), Sentinels, Flatten(front), last);
    }
  }
}
